=== FILE: README.md ===
# Poll generation classroom app — a verified model

This project models the core of a classroom polling application. A host runs a
meeting, launches multiple-choice polls over a socket connection and records audio
that a service turns into poll questions. Students join with a meeting code, answer
within a countdown and browse their history, achievements, study materials and
standings.

The model covers:

- **Meeting registry** (`Meetings`): the `Meeting` record with its schema defaults and the four REST handlers (create, end, add participant, get) over an in-memory table keyed by meeting id.
- **Socket client** (`SocketClient`): the single `SocketService` object. It holds at most one open socket, remembers the joined meeting, emits the meeting events only inside a meeting, and registers listeners.
- **Socket context** (`SessionContext`): the `SocketProvider` state shared with the pages (connected flag, current meeting, poll on screen) and its handlers.
- **Mock authentication** (`Auth`): the `AuthProvider` with its local-storage keys, the JSON text of the saved user, and sign-in, sign-up, sign-out and role changes.
- **Route guard** (`RouteGuard`): who may see a page that asks for a role.
- **Student poll screen** (`StudentPoll`): joining, the thirty-second countdown, choosing, submitting and the feedback text.
- **Audio recorder** (`Recorder`): start/pause/stop, the duration timer, chunk collection, the upload outcome messages and the status line.
- **Performance table** (`Dashboard`): the ranking comparator as a stable sort, medals and accuracy.
- **Leaderboard** (`Standings`): rank icons, rank-change labels, points to the next rank and the podium.
- **List pages** (`ListView` for what they share; `History`, `Responses`, `Trophies`, `Materials` and `Roster` for the pages): filters, search, category menus and summary tiles.

State that the source changes step by step is modelled by classes with `modifies`
clauses, including the meeting table, the socket service, the providers, the poll
screen and the recorder. Pure computations are functions with lemmas. Shared helpers
live in `Common`: JavaScript truthiness, ASCII case mapping, `trim`, `includes`,
decimal rendering, `filter`, sums, first-appearance de-duplication and `Math.round`
of a percentage.

The socket context and the student poll screen live under `packages/client/`, and they
import the socket service and the authentication context from there. Those two files are
modelled from their copies under `client/` (`client/src/services/socket.ts` and
`client/src/contexts/AuthContext.tsx`), which are assumed to match the `packages/client/`
ones.

Environment inputs are passed in as parameters:

- the current time (`now`);
- whether the microphone was granted;
- the upload's outcome;
- the signed-in user.

## Model

| member | source | states |
|---|---|---|
| Meetings.NewMeeting | server/src/models/Meeting.ts:12-19 | A new meeting has the given id, host and start time, no participants, no end time and is active; it is well-formed (required fields, no duplicate participants, end time iff inactive) |
| Meetings.EndedSpec | server/src/routes/meetings.ts:38-39 | Ending marks the meeting inactive with the given end time, keeps id, host, participants and start time, preserves well-formedness, and ending again leaves it inactive |
| Meetings.WithParticipantSpec | server/src/routes/meetings.ts:59-60 | Adding a user keeps the participant list duplicate-free, keeps the old list as a prefix, appends the user only when absent, and leaves active flag, end time and host unchanged |
| Meetings.WithParticipantIdempotent | server/src/routes/meetings.ts:59-60 | Adding the same user twice equals adding them once |
| Meetings.EndedMeetingAcceptsParticipants | server/src/routes/meetings.ts:49-64 | An ended meeting still accepts a participant and stays ended (no `isActive` check) |
| Meetings.MeetingStore.Create | server/src/routes/meetings.ts:7-23 | A known id gives 400 and no change; a missing required field gives 500 and no change; otherwise 201 with the new meeting, which is the only change to the table |
| Meetings.MeetingStore.End | server/src/routes/meetings.ts:30-42 | Unknown id gives 404 and no change; otherwise the stored meeting is replaced by its ended form and returned with 200 |
| Meetings.MeetingStore.AddParticipant | server/src/routes/meetings.ts:49-64 | Unknown id gives 404 and no change; otherwise the user is added once and the meeting returned with 200 |
| Meetings.MeetingStore.Get | server/src/routes/meetings.ts:71-79 | 200 with the stored meeting iff the id is known, else 404; what is returned is well-formed and carries the asked id |
| Meetings.Scenario | server/src/routes/meetings.ts:7-79 | Create, duplicate create, join twice, end, join another: participants are ["alice", "bob"] and the meeting is ended at the given time |
| SocketClient.SocketService.Connect | client/src/services/socket.ts:9-15 | Opens a new socket only when none is open, otherwise returns the same one with its listeners; meeting and event log unchanged |
| SocketClient.SocketService.Disconnect | client/src/services/socket.ts:17-23 | No socket and no listeners afterwards; the remembered meeting is kept |
| SocketClient.SocketService.JoinMeeting | client/src/services/socket.ts:25-31 | With a socket, emits one join event and records the meeting; without one, nothing changes |
| SocketClient.SocketService.LeaveMeeting | client/src/services/socket.ts:33-39 | Only with a socket and a (truthy) meeting: emits one leave event for it and forgets it; otherwise nothing changes |
| SocketClient.SocketService.LaunchPoll | client/src/services/socket.ts:41-48 | Inside a meeting, appends exactly one launch event tagged with the meeting; otherwise the log is unchanged |
| SocketClient.SocketService.EndPoll | client/src/services/socket.ts:50-57 | Inside a meeting, appends exactly one end-poll event tagged with the meeting; otherwise the log is unchanged |
| SocketClient.SocketService.SubmitAnswer | client/src/services/socket.ts:59-68 | Inside a meeting, appends exactly one answer event with user, poll and answer; otherwise the log is unchanged |
| SocketClient.SocketService.On | client/src/services/socket.ts:70-86 | With a socket, the channel is added to its listeners; without one, nothing is registered |
| SocketClient.SocketService.RemoveAllListeners | client/src/services/socket.ts:88-92 | No listeners remain |
| SocketClient.JoinBeforeConnect | client/src/services/socket.ts:25-48 | Joining before connecting is lost; after connecting, join, launch and leave emit exactly three events for the joined meeting |
| SessionContext.AfterPollEnded | packages/client/src/contexts/SocketContext.tsx:97-102 | The poll on screen is cleared iff it is the ended poll; otherwise it is kept |
| SessionContext.AfterPollEndedAsWritten | packages/client/src/contexts/SocketContext.tsx:67-72 | The poll on screen is cleared iff some registration's captured poll has the ended id, whatever is on screen now |
| SessionContext.StaleHandlerKeepsEndedPoll | packages/client/src/contexts/SocketContext.tsx:67-72 | With registrations made before any poll arrived, ending the poll on screen leaves it there as written, while the intended rule clears it |
| SessionContext.StaleHandlerClearsOtherPoll | packages/client/src/contexts/SocketContext.tsx:67-72 | A registration holding an older poll clears a different, newer poll when the older one ends |
| SessionContext.FreshSnapshotsAgree | packages/client/src/contexts/SocketContext.tsx:67-72 | When every registration saw the current poll, the as-written and intended rules agree |
| SessionContext.SocketProvider.ConnectSocket | packages/client/src/contexts/SocketContext.tsx:47-73 | Connected with a socket; the four handlers are added after the listeners already on a reused socket, or form the whole list on a new one; meeting, poll and event log kept |
| SessionContext.SocketProvider.DisconnectSocket | packages/client/src/contexts/SocketContext.tsx:75-80 | Not connected, no meeting, no poll, no socket and no listeners; the service still remembers its meeting |
| SessionContext.SocketProvider.JoinMeeting | packages/client/src/contexts/SocketContext.tsx:82-85 | The page records the meeting even when the service had no socket and joined nothing |
| SessionContext.SocketProvider.LeaveMeeting | packages/client/src/contexts/SocketContext.tsx:87-91 | Meeting and poll cleared; one leave event only when the service was inside a meeting |
| SessionContext.SocketProvider.LaunchPoll | packages/client/src/contexts/SocketContext.tsx:93-95 | Passes the poll to the service; only the event log can change |
| SessionContext.SocketProvider.EndPoll | packages/client/src/contexts/SocketContext.tsx:97-102 | The poll on screen follows `AfterPollEnded`, and one end event is sent when inside a meeting |
| SessionContext.SocketProvider.SubmitAnswer | packages/client/src/contexts/SocketContext.tsx:104-108 | Sends one answer event with the signed-in user's uid; with nobody signed in or outside a meeting, nothing is sent |
| SessionContext.SocketProvider.OnSocketConnected | packages/client/src/contexts/SocketContext.tsx:51-54 | A registered connect handler marks the page connected |
| SessionContext.SocketProvider.OnSocketDisconnected | packages/client/src/contexts/SocketContext.tsx:56-59 | A registered disconnect handler marks the page disconnected |
| SessionContext.SocketProvider.OnNewPoll | packages/client/src/contexts/SocketContext.tsx:62-65 | A registered new-poll handler puts the received poll on screen |
| SessionContext.SocketProvider.OnPollEnded | packages/client/src/contexts/SocketContext.tsx:67-72 | A registered poll-ended handler applies the intended rule against the poll on screen |
| SessionContext.SocketProvider.Unmount | packages/client/src/contexts/SocketContext.tsx:111-116 | Every listener removed and the socket closed |
| SessionContext.ReconnectKeepsServiceMeeting | packages/client/src/contexts/SocketContext.tsx:75-95 | After disconnect and reconnect, the page shows no meeting but a launched poll still goes to the meeting joined before |
| SessionContext.LaunchReceiveEnd | packages/client/src/contexts/SocketContext.tsx:47-102 | Launch, receive and end of one poll on the same page leave the screen empty and the log with exactly three events |
| Auth.DecodeEncodeUser | client/src/contexts/AuthContext.tsx:52 | Parsing the stringified user gives the same user back |
| Auth.SavedUserRestored | client/src/contexts/AuthContext.tsx:36-39 | A user written under "mockUser" is the user found on the next load |
| Auth.SignUpStorageRestores | client/src/contexts/AuthContext.tsx:63-66 | After signing up, the next load finds the new user, whether or not a role was stored |
| Auth.SignInRole | client/src/contexts/AuthContext.tsx:45 | Signing in always yields a role: the stored one, or "participant" when none is stored |
| Auth.SignUpThenSignIn | client/src/contexts/AuthContext.tsx:55-66 | Signing up with a role and signing in later gives that role back |
| Auth.SignUpWithoutRoleKeepsStoredRole | client/src/contexts/AuthContext.tsx:60-66 | Signing up without a role makes a participant but leaves an earlier stored "host" role, which a later sign-in picks up |
| Auth.RoleChangeNotSaved | client/src/contexts/AuthContext.tsx:75-84 | Changing the role does not rewrite the saved user, so a reload restores the old role |
| Auth.AuthProvider.constructor | client/src/contexts/AuthContext.tsx:31-32 | Starts with nobody signed in and loading |
| Auth.AuthProvider.LoadSavedUser | client/src/contexts/AuthContext.tsx:34-41 | Nothing saved: loading ends; the text `null`: nobody signed in and loading ends; a saved user: restored and loading ends; unreadable text: the effect throws and loading stays on |
| Auth.Mount | client/src/contexts/AuthContext.tsx:31-98 | After the first render and the mount effect, the children are shown iff the saved text is absent, `null` or a saved user, and the user on screen is the saved one or nobody |
| Auth.AuthProvider.SignIn | client/src/contexts/AuthContext.tsx:43-53 | The user gets a time-based uid, the e-mail and the stored role, and is saved; the password is not consulted |
| Auth.AuthProvider.SignUp | client/src/contexts/AuthContext.tsx:55-67 | The user (role or "participant") is saved, and the role is stored only when given |
| Auth.AuthProvider.SignOut | client/src/contexts/AuthContext.tsx:69-73 | Nobody signed in; both storage keys removed, nothing else |
| Auth.AuthProvider.SetUserRole | client/src/contexts/AuthContext.tsx:75-85 | Stores or removes the role and changes the signed-in user's role only; never signs anyone in |
| RouteGuard.GuardSpec | client/src/components/ProtectedRoute.tsx:16-24 | The page renders iff someone is signed in and the route asks no role or the user holds exactly that role |
| RouteGuard.SignedOutRedirected | client/src/components/ProtectedRoute.tsx:16-18 | Nobody signed in is always redirected |
| RouteGuard.NoRoleOnlyUnrestricted | client/src/components/ProtectedRoute.tsx:20-22 | A user without a role passes exactly the routes that ask for none |
| RouteGuard.SignUpDecidesRoute | client/src/components/ProtectedRoute.tsx:20-22 | A host sign-up reaches host pages only; a sign-up without role reaches participant pages only |
| RouteGuard.SignInWithoutStoredRole | client/src/components/ProtectedRoute.tsx:20-22 | With no stored role, a fresh sign-in is refused host pages and admitted to participant pages |
| StudentPoll.CountdownStep | packages/client/src/components/student/ActivePoll.tsx:50-56 | The next count is never negative, is one less when at least one second is left, and is 0 exactly when the count was absent or at most 1 |
| StudentPoll.CountdownAfter | packages/client/src/components/student/ActivePoll.tsx:49-57 | After n ticks from t the count is max(t − n, 0) |
| StudentPoll.MockCountdownEnds | packages/client/src/components/student/ActivePoll.tsx:43-57 | The demo countdown is not 0 before the thirtieth tick, is 0 at it, and stays 0 at every later tick |
| StudentPoll.FeedbackSaysCorrect | packages/client/src/components/student/ActivePoll.tsx:75-78 | The feedback contains "Correct" iff the chosen option is the correct one, provided no option text contains "Correct" (the test the result screen makes at line 234) |
| StudentPoll.MockPollFeedback | packages/client/src/components/student/ActivePoll.tsx:26-40 | On the demo poll option B earns 50 points, another option names option B, and no poll gives "undefined" |
| StudentPoll.ActivePollView.SetMeetingCode | packages/client/src/components/student/ActivePoll.tsx:111 | The stored code is the typed text upper-cased |
| StudentPoll.ActivePollView.HandleJoinMeeting | packages/client/src/components/student/ActivePoll.tsx:42-67 | A non-blank code connects; connecting shows the demo poll with thirty seconds and clears choice, submission and feedback; a blank code, or a join while already connected, changes nothing |
| StudentPoll.JoinDemo | packages/client/src/components/student/ActivePoll.tsx:63-67 | A code typed with spaces and lower-case letters joins: the demo poll is on screen with thirty seconds, nothing chosen, nothing submitted and no feedback |
| StudentPoll.ActivePollView.Tick | packages/client/src/components/student/ActivePoll.tsx:49-57 | A running countdown moves by `CountdownStep` and stops itself at 0; a stopped one does not move |
| StudentPoll.ActivePollView.SelectOption | packages/client/src/components/student/ActivePoll.tsx:207 | The chosen option is recorded |
| StudentPoll.RunDown | packages/client/src/components/student/ActivePoll.tsx:49-57 | Thirty or more seconds of a countdown started at thirty leave the count at 0 with the interval cleared |
| StudentPoll.TimeRunsOut | packages/client/src/components/student/ActivePoll.tsx:221 | Once the countdown has run out after joining, the submit button is disabled whichever option is chosen |
| StudentPoll.ActivePollView.HandleSubmit | packages/client/src/components/student/ActivePoll.tsx:69-80 | Without a choice nothing changes; otherwise submitted, with the feedback for the choice |
| StudentPoll.ActivePollView.LeaveSession | packages/client/src/components/student/ActivePoll.tsx:151 | Back to the join form, with the countdown cleared |
| StudentPoll.AnswerInTime | packages/client/src/components/student/ActivePoll.tsx:63-80 | Join, tick, choose B and submit shows the correct-answer message with 50 points |
| Recorder.UploadHostId | client/src/components/host/AudioRecorder.tsx:147 | The host id is the signed-in e-mail, otherwise "anonymous"; never empty |
| Recorder.Pad2 | client/src/components/host/AudioRecorder.tsx:183 | Two digits whose value is the number |
| Recorder.FormatDurationRoundTrip | client/src/components/host/AudioRecorder.tsx:180-184 | Reading the m:ss display back gives the seconds counted |
| Recorder.RecordingStatus | client/src/components/host/AudioRecorder.tsx:186-191 | Each of the four status texts appears exactly in its state: processing; else recording and paused; else recording; else ready |
| Recorder.StatusColorMatchesStatus | client/src/components/host/AudioRecorder.tsx:193-198 | Two states get the same colour iff they get the same status text |
| Recorder.AudioRecorder.StartRecording | client/src/components/host/AudioRecorder.tsx:44-96 | Messages cleared; without the microphone an error and every other field unchanged; with it, recording from zero seconds and no chunks with one more running timer, transcript and handed-on questions kept |
| Recorder.AudioRecorder.Tick | client/src/components/host/AudioRecorder.tsx:86-88 | Each running timer adds one second, paused or not |
| Recorder.AudioRecorder.OnDataAvailable | client/src/components/host/AudioRecorder.tsx:69-73 | Non-empty chunks are appended; empty ones are dropped |
| Recorder.AudioRecorder.StopRecording | client/src/components/host/AudioRecorder.tsx:98-120 | Only while recording: the microphone is closed, the timer cleared, and the state moves to processing; chunks, messages, transcript and handed-on questions kept; otherwise nothing changes |
| Recorder.AudioRecorder.PauseRecording | client/src/components/host/AudioRecorder.tsx:122-132 | Only while recording, the paused flag flips |
| Recorder.AudioRecorder.ProcessRecording | client/src/components/host/AudioRecorder.tsx:134-178 | No chunks: "No audio data recorded"; a failed upload: its message; success: the transcript, the generated-count message and the questions handed on; processing ends in every case; chunks, microphone, recorder and timers are untouched |
| Recorder.AudioRecorder.UnmountAsWritten | client/src/components/host/AudioRecorder.tsx:35-42 | The registered clean-up only clears the timer held in the reference |
| Recorder.AudioRecorder.Unmount | client/src/components/host/AudioRecorder.tsx:35-42 | The intended clean-up leaves the microphone closed, not recording and no timer of this recording running; a recording under way moves to processing; chunks, messages, transcript and handed-on questions kept |
| Recorder.DurationLine | client/src/components/host/AudioRecorder.tsx:216-219 | The duration line is shown iff recording, and reading it back gives the seconds counted |
| Recorder.RecordTenSeconds | client/src/components/host/AudioRecorder.tsx:44-219 | After start and ten seconds the duration line reads "0:10"; after stop and a successful upload the line is gone, the recorded duration is ten seconds and three questions are handed on |
| Recorder.LeaveWhileRecording | client/src/components/host/AudioRecorder.tsx:35-42 | Unmounting while recording leaves the microphone open as written; the corrected clean-up closes it |
| Dashboard.RankIsPermutation | packages/client/src/components/host/PerformanceDashboard.tsx:45-48 | The ranking is a permutation of the participants |
| Dashboard.RankIsRanked | packages/client/src/components/host/PerformanceDashboard.tsx:45-48 | Correct answers never increase down the table, and among equal scores the average time never decreases |
| Dashboard.RankIsStable | packages/client/src/components/host/PerformanceDashboard.tsx:45-48 | Participants the comparator cannot tell apart keep their original order |
| Dashboard.DemoRanking | packages/client/src/components/host/PerformanceDashboard.tsx:13-48 | The demo data ranks Alice, Jane, John, Bob |
| Dashboard.RankCell | packages/client/src/components/host/PerformanceDashboard.tsx:81-85 | Rows 0, 1 and 2 get the gold, silver and bronze medals and only they do; later rows show their 1-based position in digits |
| Dashboard.AccuracyCell | packages/client/src/components/host/PerformanceDashboard.tsx:96 | The rounded percentage with "%", or NaN%/Infinity%/-Infinity% when dividing by zero |
| Dashboard.AccuracyBounds | packages/client/src/components/host/PerformanceDashboard.tsx:96 | With correct ≤ total the accuracy lies in 0..100, and more correct answers over the same total never show less |
| Dashboard.DemoAccuracy | packages/client/src/components/host/PerformanceDashboard.tsx:13-42 | The demo rows read 100%, 90%, 80%, 70% |
| Standings.RankIcon | client/src/components/student/Leaderboard.tsx:130-137 | Ranks 1, 2, 3 and only they get the gold, silver and bronze medals; other ranks read "#" and the rank |
| Standings.RankIconInjective | client/src/components/student/Leaderboard.tsx:130-137 | Different ranks never get the same icon |
| Standings.RankChangeLabelInjective | client/src/components/student/Leaderboard.tsx:139-143 | Different changes get different labels, and the arrow is up iff the change is positive and down iff negative |
| Standings.CurrentUserIndex | client/src/components/student/Leaderboard.tsx:155 | The first entry marked as the current user, or none when no entry is |
| Standings.PointsToNextOnRankedBoard | client/src/components/student/Leaderboard.tsx:155-157 | On a well-ranked board the figure is the gap to the entry just above the user, never negative, and 0 for the leader or when no user is marked |
| Standings.Podium | client/src/components/student/Leaderboard.tsx:221 | The podium is the first three entries (fewer if the board is shorter) |
| Standings.PodiumMedals | client/src/components/student/Leaderboard.tsx:221 | On a well-ranked board the podium carries the three medals in order |
| Standings.DemoBoard | client/src/components/student/Leaderboard.tsx:21-126 | The demo board is well-ranked and "You", at rank 3, need 140 points to reach rank 2 |
| ListView.EmptySearchMatches | client/src/components/student/PollHistory.tsx:110-111 | An empty search term matches every record |
| ListView.LongerSearchMatchesLess | client/src/components/student/PollHistory.tsx:110-111 | A longer search term matches no record the shorter one did not |
| ListView.FlagSplits | client/src/components/student/PollHistory.tsx:107-109 | Setting a yes/no selector to set and to clear splits what "all" shows: lengths and multisets add up |
| ListView.StricterShowsLess | client/src/components/student/PollHistory.tsx:105-114 | A stricter selection shows a subsequence of a looser one |
| ListView.CategoryMenuSpec | client/src/components/student/PollHistory.tsx:103 | The menu after "all" holds every category once, invents none, and follows first appearance |
| ListView.ResponseTimeBandMonotone | client/src/components/student/PollHistory.tsx:125-129 | A slower answer never gets a faster colour band; the bands switch exactly at 10 and 20 seconds |
| History.ShownSpec | client/src/components/student/PollHistory.tsx:105-114 | The list shown is a subsequence of the history holding exactly the polls that pass category, result and search |
| History.ShowEverythingShowsAll | client/src/components/student/PollHistory.tsx:106-111 | "all", "all" and an empty search show the whole history |
| History.ResultSplit | client/src/components/student/PollHistory.tsx:107-109 | "Correct" and "incorrect" split what "all results" shows, for any category and search |
| History.SearchNarrows | client/src/components/student/PollHistory.tsx:110-111 | Extending the search term only removes polls |
| History.CategoriesSpec | client/src/components/student/PollHistory.tsx:103 | The menu is "all", then every poll's category once and nothing else |
| History.SummarySpec | client/src/components/student/PollHistory.tsx:140-142 | Correct ≤ total, correct plus wrong = total, and with no negative points the correct answers' points are within the total |
| History.DemoSummary | client/src/components/student/PollHistory.tsx:22-101 | The demo history has 6 polls, 5 correct, 230 points |
| History.DemoWrongOnly | client/src/components/student/PollHistory.tsx:105-114 | "Incorrect" on the demo shows only the Geography poll |
| History.DemoBands | client/src/components/student/PollHistory.tsx:125-129 | On the demo the 12 s and 18 s answers are yellow, the rest green, none red |
| Responses.FindQuestion | client/src/components/host/ResponsesView.tsx:89 | The question of the first poll with the id, or none iff no poll has it |
| Responses.ShownSpec | client/src/components/host/ResponsesView.tsx:88-94 | The list shown is a subsequence holding exactly the responses that pass the poll and correctness selectors |
| Responses.ShowEverythingShowsAll | client/src/components/host/ResponsesView.tsx:89-91 | Both selectors at "all" show every response |
| Responses.UnknownPollShowsNothing | client/src/components/host/ResponsesView.tsx:89 | An id that names no poll shows no response |
| Responses.KnownPollShowsItsResponses | client/src/components/host/ResponsesView.tsx:89 | A known poll id shows a response iff it answers that poll's question |
| Responses.CorrectnessSplit | client/src/components/host/ResponsesView.tsx:90-92 | "Correct" and "incorrect" split what "all" shows, for any poll selection |
| Responses.IncorrectTileCountsWrongAnswers | client/src/components/host/ResponsesView.tsx:102-103 | Total minus correct is never negative and equals the number of wrong answers |
| Responses.DemoSummary | client/src/components/host/ResponsesView.tsx:18-123 | The demo has 6 responses, 4 correct, an Incorrect tile of 2, none red |
| Trophies.ShownSpec | client/src/components/student/Achievements.tsx:152-159 | The list shown is a subsequence holding exactly the achievements that pass category and status |
| Trophies.ShowEverythingShowsAll | client/src/components/student/Achievements.tsx:152-159 | "all"/"all" shows every achievement |
| Trophies.StatusSplit | client/src/components/student/Achievements.tsx:154-156 | "Unlocked" and "locked" split what "all" shows, for any category |
| Trophies.TilesSpec | client/src/components/student/Achievements.tsx:189-219 | Unlocked ≤ total, unlocked legendaries ≤ unlocked, completion is a percentage iff there are achievements, and unlocked points never exceed all points |
| Trophies.CompletionMonotone | client/src/components/student/Achievements.tsx:211 | Unlocking more never lowers the completion shown |
| Trophies.ProgressWidth | client/src/components/student/Achievements.tsx:294 | The bar width lies in 0..100, is 100 when progress reaches the maximum, is exactly the proportion below it, and is no number only for 0 of 0 |
| Trophies.ProgressWidthMonotone | client/src/components/student/Achievements.tsx:294 | More progress towards the same maximum never draws a shorter bar |
| Trophies.DemoUnlocked | client/src/components/student/Achievements.tsx:21-148 | The unlocked demo achievements are the first four, Scholar and Consistency King |
| Trophies.DemoTiles | client/src/components/student/Achievements.tsx:189-211 | The demo shows 6/10 unlocked, 460 points and 60% completion |
| Trophies.DemoLegendaryAndScholar | client/src/components/student/Achievements.tsx:118-119 | No demo legendary is unlocked, and Scholar's 1250/1000 bar is drawn full |
| Materials.ShownSpec | packages/client/src/components/student/StudyMaterials.tsx:107-114 | The list shown is a subsequence holding exactly the materials that pass category, type and search |
| Materials.ShowEverythingShowsAll | packages/client/src/components/student/StudyMaterials.tsx:108-111 | "all", "all" and an empty search show every material |
| Materials.SearchNarrows | packages/client/src/components/student/StudyMaterials.tsx:110-111 | Extending the search term only removes materials |
| Materials.CategoriesSpec | packages/client/src/components/student/StudyMaterials.tsx:104 | The menu is "all", then every material's category once and nothing else |
| Materials.CompletedCountSpec | packages/client/src/components/student/StudyMaterials.tsx:153 | Completed ≤ materials, and all of them when every material is completed |
| Materials.StarsSpec | packages/client/src/components/student/StudyMaterials.tsx:145-151 | Always five stars, lit from the left, as many as the rating rounded down and clamped to 0..5 |
| Materials.StarsMonotone | packages/client/src/components/student/StudyMaterials.tsx:145-151 | A higher rating lights every star a lower one lights |
| Materials.ActionLabel | packages/client/src/components/student/StudyMaterials.tsx:293 | The label is "Completed" iff the material is completed, "Continue" iff not completed but started, "Start" iff neither |
| Materials.ActionLabelDistinguishes | packages/client/src/components/student/StudyMaterials.tsx:293 | Every label is one of the three, and equal labels mean the same completion and started state |
| Materials.DemoPage | packages/client/src/components/student/StudyMaterials.tsx:23-102 | The demo has 2 of 6 completed, four lit stars on each, the three label states, and a download only for the TypeScript document |
| Roster.ShownSpec | client/src/components/host/ParticipantsView.tsx:95-100 | The list shown is a subsequence holding exactly the participants that pass search and status |
| Roster.ShowEverythingShowsAll | client/src/components/host/ParticipantsView.tsx:96-98 | An empty search with every status shows every participant |
| Roster.SearchNarrows | client/src/components/host/ParticipantsView.tsx:96-97 | Extending the search term only removes participants |
| Roster.OnlyStatusShowsThatStatus | client/src/components/host/ParticipantsView.tsx:98 | One status with an empty search shows exactly the participants with that status, in order |
| Roster.StatusCountsAddUp | client/src/components/host/ParticipantsView.tsx:154-171 | The online, away and offline tiles add up to the total |
| Roster.DemoCounts | client/src/components/host/ParticipantsView.tsx:22-171 | The demo shows 5 participants: 3 online, 1 away, 1 offline |

## Left out

- Database failures: the 500 answers for storage errors are not modelled; the table is an in-memory map. The one 500 kept is the schema's rejection of an empty required field.
- Request bodies with missing fields (`undefined` meeting or host ids) are modelled as strings, so a missing value is the empty string.
- The socket relay on the server, the scoring constants and the response schema are not part of this model.
- The audio upload service, the media recorder, the microphone stream and `fetch` are represented by their outcomes (`micGranted`, `UploadOutcome`, chunk sizes).
- JSON text of the saved user: only `"` and `\` are escaped; control characters and `\u` escapes are not modelled.
- `trim`, `toLowerCase` and `toUpperCase` are modelled for ASCII and a few white-space characters only; Unicode case folding is not modelled.
- Floating-point averages and their `toFixed` display (poll history, responses, study progress, dashboard average times) are not modelled. Average times are integers in tenths of a second where the ranking needs them.
- Trophies.Completion: the percentage is rounded from the exact quotient; the source rounds a floating-point product, which can land just below an exact half and round down.
- Dashboard.AccuracyCell: the same gap as the completion percentage; for 23 correct of 40 the source computes 57.49999999999999 and shows "57%", where the model shows "58%".
- Auth.AuthProvider.LoadSavedUser: stored text that the provider did not write itself (the same object with spaces, or any other JSON value than `null`) is treated as text the parse rejects, so loading stays on; the source parses it and ends loading.
- Effect and interval scheduling is made explicit: a tick is a method call, and React's batching of state updates is not modelled.
- Colour and CSS mappings other than the response-time bands and the recorder's status colour are not modelled: difficulty, rarity, level, status and engagement colours, and the type icons.
- The leaderboard's time and category selectors are never applied to its data, so they have no model.
- Date formatting (`toLocaleDateString`) is not modelled.
- `Date.now()` is a parameter: successive uids are not claimed to differ.
- Socket.io's own reconnection and delivery are not modelled; events are appended to a log.
- The host-side leaderboard view is not part of this model.
- Recorder.AudioRecorder.UnmountAsWritten: it does not re-establish the class invariant, because the clean-up leaves a cleared timer id in the reference.

## Findings

| source | as written | input that shows it | evidently intended | confidence | as-written member | corrected member |
|---|---|---|---|---|---|---|
| packages/client/src/contexts/SocketContext.tsx:67-72 | The `poll-ended` handler compares the ended id with the `activePoll` captured when `connectSocket` ran | Connect (no poll yet), receive poll p1, server sends `poll-ended` for p1: p1 stays on screen | Clear the poll on screen when it is the ended one, as `endPoll` at lines 99-101 does | not executed | SessionContext.StaleHandlerKeepsEndedPoll | SessionContext.AfterPollEnded |
| client/src/components/host/AudioRecorder.tsx:35-42 | The unmount clean-up registered with `[]` calls the first render's `stopRecording`, whose `recordingState.isRecording` is false | Start recording, then leave the page: the microphone tracks and the media recorder keep running | Stop the recording under way on unmount | not executed | Recorder.LeaveWhileRecording | Recorder.AudioRecorder.Unmount |

=== FILE: achievements.dfy ===
/** The student's achievements page (`Achievements`): the list filtered by category and
    by locked/unlocked, the four summary tiles, and the width of each progress bar. */
module Trophies {
  import opened Common
  import opened ListView

  datatype Rarity = Common | Rare | Epic | Legendary

  /** One achievement; `progress` may run past `maxProgress`. */
  datatype Achievement = Achievement(
    id: string,
    title: string,
    category: string,
    isUnlocked: bool,
    progress: nat,
    maxProgress: nat,
    points: int,
    rarity: Rarity)

  /** The demonstration achievements. */
  const Achievements := [
    Achievement("1", "First Steps", "participation", true, 1, 1, 10, Common),
    Achievement("2", "Accuracy Master", "accuracy", true, 1, 1, 50, Rare),
    Achievement("3", "Speed Demon", "speed", true, 10, 10, 75, Epic),
    Achievement("4", "Hot Streak", "streak", true, 10, 10, 100, Epic),
    Achievement("5", "Perfect Score", "accuracy", false, 8, 10, 150, Legendary),
    Achievement("6", "Marathon Runner", "participation", false, 32, 50, 200, Epic),
    Achievement("7", "Lightning Fast", "speed", false, 0, 1, 25, Rare),
    Achievement("8", "Scholar", "participation", true, 1250, 1000, 100, Rare),
    Achievement("9", "Consistency King", "streak", true, 7, 7, 125, Epic),
    Achievement("10", "Subject Master", "accuracy", false, 92, 95, 175, Legendary)]

  /** The fixed category menu. */
  const Categories := ["all", "accuracy", "speed", "streak", "participation", "special"]

  /** The two selectors: a category or "all", and unlocked/locked/all. */
  datatype Query = Query(category: string, status: FlagFilter)

  const ShowEverything := Query("all", AllItems)

  predicate Keep(q: Query, a: Achievement) {
    Selects(q.category, a.category) && Admits(q.status, a.isUnlocked)
  }

  function KeepFor(q: Query): Achievement -> bool {
    a => Keep(q, a)
  }

  /** `filteredAchievements`. */
  function Shown(items: seq<Achievement>, q: Query): seq<Achievement> {
    Filter(items, KeepFor(q))
  }

  /** The list shown keeps the original order and holds exactly the achievements that pass
      both selectors. */
  lemma ShownSpec(items: seq<Achievement>, q: Query)
    ensures IsSubsequence(Shown(items, q), items)
    ensures forall a :: a in Shown(items, q) ==> a in items && Keep(q, a)
    ensures forall a :: a in items && Keep(q, a) ==> a in Shown(items, q)
  {
    ListView.ShownSpec(items, KeepFor(q));
  }

  /** Both selectors at "all" show every achievement. */
  lemma ShowEverythingShowsAll(items: seq<Achievement>)
    ensures Shown(items, ShowEverything) == items
  {
    WildcardShowsAll(items, KeepFor(ShowEverything));
  }

  /** "Unlocked" and "locked" split what "all" shows, for any category. */
  lemma StatusSplit(items: seq<Achievement>, category: string)
    ensures |Shown(items, Query(category, OnlyTrue))| + |Shown(items, Query(category, OnlyFalse))|
            == |Shown(items, Query(category, AllItems))|
    ensures multiset(Shown(items, Query(category, OnlyTrue))) + multiset(Shown(items, Query(category, OnlyFalse)))
            == multiset(Shown(items, Query(category, AllItems)))
  {
    FlagSplits(items, KeepFor(Query(category, AllItems)), (a: Achievement) => a.isUnlocked,
               KeepFor(Query(category, OnlyTrue)), KeepFor(Query(category, OnlyFalse)));
  }

  function IsUnlocked(): Achievement -> bool {
    (a: Achievement) => a.isUnlocked
  }

  function IsLegendaryUnlocked(): Achievement -> bool {
    (a: Achievement) => a.rarity == Legendary && a.isUnlocked
  }

  /** `unlockedCount`. */
  function UnlockedCount(items: seq<Achievement>): nat {
    |Filter(items, IsUnlocked())|
  }

  /** `totalPoints`: the points of the unlocked achievements only. */
  function UnlockedPoints(items: seq<Achievement>): int {
    Sum(Filter(items, IsUnlocked()), (a: Achievement) => a.points)
  }

  /** The "Legendary" tile. */
  function LegendaryUnlocked(items: seq<Achievement>): nat {
    |Filter(items, IsLegendaryUnlocked())|
  }

  /** The "Completion" tile: the unlocked share rounded to a whole percentage; with no
      achievements the division is 0/0 and nothing numeric is shown. */
  function Completion(items: seq<Achievement>): Option<int> {
    RoundedPercent(UnlockedCount(items), |items|)
  }

  /** The tiles agree with one another: no more unlocked than achievements, no more
      unlocked legendaries than unlocked ones, the completion a percentage whenever there
      are achievements, and with no negative points the unlocked points at most the points
      of all achievements. */
  lemma TilesSpec(items: seq<Achievement>)
    ensures UnlockedCount(items) <= |items|
    ensures LegendaryUnlocked(items) <= UnlockedCount(items)
    ensures Completion(items).Some? <==> |items| > 0
    ensures |items| > 0 ==> 0 <= Completion(items).value <= 100
    ensures (forall i :: 0 <= i < |items| ==> items[i].points >= 0) ==>
              0 <= UnlockedPoints(items) <= Sum(items, (a: Achievement) => a.points)
  {
    StricterShowsLess(items, IsLegendaryUnlocked(), IsUnlocked());
    if |items| > 0 {
      RoundedPercentBounds(UnlockedCount(items), |items|);
    }
    if forall i :: 0 <= i < |items| ==> items[i].points >= 0 {
      SumFilterBound(items, IsUnlocked(), (a: Achievement) => a.points);
    }
  }

  /** Unlocking achievements never lowers the completion shown. */
  lemma CompletionMonotone(fewer: nat, more: nat, total: nat)
    requires fewer <= more && total > 0
    ensures RoundedPercent(fewer, total).value <= RoundedPercent(more, total).value
  {
    RoundedPercentMonotone(fewer, more, total);
  }

  /** The width of a progress bar, in percent: the progress over the maximum, capped at
      100. A zero maximum divides by zero: any progress gives an infinite share, capped to
      100, and no progress gives no number at all. */
  function ProgressWidth(progress: nat, maxProgress: nat): (r: Option<real>)
    ensures r.None? <==> progress == 0 && maxProgress == 0
    ensures r.Some? ==> 0.0 <= r.value <= 100.0
    ensures r.Some? && progress >= maxProgress ==> r.value == 100.0
    ensures progress < maxProgress ==>
              r.Some? && r.value < 100.0 && r.value * maxProgress as real == 100.0 * progress as real
  {
    if maxProgress == 0 then
      if progress == 0 then None else Some(100.0)
    else
      var share := 100.0 * progress as real / maxProgress as real;
      if share < 100.0 then Some(share) else Some(100.0)
  }

  /** More progress towards the same maximum never draws a shorter bar. */
  lemma ProgressWidthMonotone(p1: nat, p2: nat, maxProgress: nat)
    requires p1 <= p2 && maxProgress > 0
    ensures ProgressWidth(p1, maxProgress).value <= ProgressWidth(p2, maxProgress).value
  {
    var m := maxProgress as real;
    assert 100.0 * p1 as real / m <= 100.0 * p2 as real / m;
  }

  /** Of the last six demonstration achievements only Scholar and Consistency King are
      unlocked. */
  lemma DemoUnlockedTail()
    ensures Filter(Achievements[4..], IsUnlocked()) == [Achievements[7], Achievements[8]]
  {
    var a := Achievements;
    assert Filter(a[9..], IsUnlocked()) == [];
    assert Filter(a[8..], IsUnlocked()) == [a[8]];
    assert Filter(a[7..], IsUnlocked()) == [a[7], a[8]];
    assert Filter(a[6..], IsUnlocked()) == [a[7], a[8]];
    assert Filter(a[5..], IsUnlocked()) == [a[7], a[8]];
  }

  /** The unlocked demonstration achievements: the first four, Scholar and Consistency King. */
  lemma DemoUnlocked()
    ensures Filter(Achievements, IsUnlocked())
            == [Achievements[0], Achievements[1], Achievements[2], Achievements[3], Achievements[7], Achievements[8]]
  {
    var a := Achievements;
    DemoUnlockedTail();
    assert Filter(a[3..], IsUnlocked()) == [a[3], a[7], a[8]];
    assert Filter(a[2..], IsUnlocked()) == [a[2], a[3], a[7], a[8]];
    assert Filter(a[1..], IsUnlocked()) == [a[1], a[2], a[3], a[7], a[8]];
  }

  /** The demonstration tiles: 6 of 10 unlocked, 460 points, 60% complete. */
  lemma DemoTiles()
    ensures UnlockedCount(Achievements) == 6 && |Achievements| == 10
    ensures UnlockedPoints(Achievements) == 460
    ensures Completion(Achievements) == Some(60)
  {
    DemoUnlocked();
    var a := Achievements;
    var u := [a[0], a[1], a[2], a[3], a[7], a[8]];
    var pts := (x: Achievement) => x.points;
    assert Sum(u[5..], pts) == 125;
    assert Sum(u[4..], pts) == 225;
    assert Sum(u[3..], pts) == 325;
    assert Sum(u[2..], pts) == 400;
    assert Sum(u[1..], pts) == 450;
  }

  /** No legendary achievement of the demonstration is unlocked, and Scholar's bar
      (1250 of 1000) is drawn full. */
  lemma DemoLegendaryAndScholar()
    ensures LegendaryUnlocked(Achievements) == 0
    ensures ProgressWidth(Achievements[7].progress, Achievements[7].maxProgress) == Some(100.0)
  {
    FilterKeepsNone(Achievements, IsLegendaryUnlocked());
  }
}

=== FILE: active_poll.dfy ===
/** The student's poll screen (`ActivePoll`): joining with a meeting code, the demo poll
    shown once joined, its thirty-second countdown, choosing an option and the feedback
    shown after submitting. */
module StudentPoll {
  import opened Common

  datatype Difficulty = Easy | Medium | Hard

  /** A poll as the student sees it. */
  datatype QuizPoll = QuizPoll(
    id: string,
    question: string,
    options: seq<string>,
    correctAnswer: Option<int>,
    timeLimit: int,
    difficulty: Difficulty,
    category: string,
    points: int)

  /** The demonstration poll the screen shows once joined. */
  const MockPoll := QuizPoll(
    "1",
    "What is the primary benefit of using TypeScript with React?",
    ["Faster runtime performance", "Type safety and better IDE support",
     "Smaller bundle size", "Built-in state management"],
    Some(1), 30, Medium, "Programming", 50)

  /** The seconds the countdown starts from. */
  const StartSeconds := 30

  // ------------------------------------------------------------------
  // Countdown
  // ------------------------------------------------------------------

  /** One tick of the countdown: an unset or nearly finished count becomes 0 (and the
      timer is cleared), anything else goes down by one. */
  function CountdownStep(prev: Option<int>): (r: int)
    ensures r >= 0
    ensures prev.Some? && prev.value >= 1 ==> r == prev.value - 1
    ensures r == 0 <==> prev.None? || prev.value <= 1
  {
    if prev.None? || prev.value <= 1 then 0 else prev.value - 1
  }

  /** The count after `n` ticks. */
  function Countdown(t: Option<int>, n: nat): Option<int> {
    if n == 0 then t else Some(CountdownStep(Countdown(t, n - 1)))
  }

  /** After `n >= 1` ticks from `t` the count is `t - n`, but never below zero. */
  lemma {:induction false} CountdownAfter(t: int, n: nat)
    requires n >= 1
    ensures Countdown(Some(t), n) == Some(if t - n >= 0 then t - n else 0)
  {
    if n > 1 {
      CountdownAfter(t, n - 1);
    }
  }

  /** The demo poll's countdown reaches zero after exactly thirty ticks and stays there. */
  lemma MockCountdownEnds()
    ensures Countdown(Some(StartSeconds), StartSeconds) == Some(0)
    ensures forall n :: 1 <= n < StartSeconds ==> Countdown(Some(StartSeconds), n) != Some(0)
    ensures forall n :: n >= StartSeconds ==> Countdown(Some(StartSeconds), n) == Some(0)
  {
    forall n | 1 <= n ensures Countdown(Some(StartSeconds), n) == Some(if StartSeconds - n >= 0 then StartSeconds - n else 0) {
      CountdownAfter(StartSeconds, n);
    }
  }

  // ------------------------------------------------------------------
  // Feedback
  // ------------------------------------------------------------------

  /** `correctAnswer || 0`. */
  function OrZero(v: Option<int>): int {
    if v.Some? then v.value else 0
  }

  /** `options[i]`, undefined out of range. */
  function OptionAt(options: seq<string>, i: int): (r: Option<string>)
    ensures r.Some? <==> 0 <= i < |options|
    ensures r.Some? ==> r.value in options
  {
    if 0 <= i < |options| then Some(options[i]) else None
  }

  function CorrectFeedback(points: int): string {
    "\U{1F389} Correct! You earned " + IntString(points) + " points!"
  }

  const IncorrectPrefix := "\U{274C} Incorrect. The correct answer was: "

  /** The text of the right answer, rendered `undefined` when there is none. */
  function IncorrectFeedback(shown: Option<string>): string {
    IncorrectPrefix + (if shown.Some? then shown.value else "undefined")
  }

  /** The feedback after submitting option `selected`. */
  function Feedback(poll: Option<QuizPoll>, selected: int): string {
    if poll.Some? && poll.value.correctAnswer == Some(selected) then CorrectFeedback(poll.value.points)
    else IncorrectFeedback(if poll.Some? then OptionAt(poll.value.options, OrZero(poll.value.correctAnswer)) else None)
  }

  /** Text without the needle's first letter does not contain the needle. */
  lemma NoFirstLetter(s: string, needle: string)
    requires needle != []
    requires forall i :: 0 <= i < |s| ==> s[i] != needle[0]
    ensures !Contains(s, needle)
  {
    ContainsIffOccurs(s, needle);
    forall i ensures !OccursAt(s, needle, i) {
      if 0 <= i && i + |needle| <= |s| {
        assert s[i..i + |needle|][0] == s[i];
      }
    }
  }

  /** Putting text without the needle's first letter in front of text without the
      needle does not make the needle appear. */
  lemma PrefixWithoutFirstLetter(a: string, b: string, needle: string)
    requires needle != []
    requires forall i :: 0 <= i < |a| ==> a[i] != needle[0]
    requires !Contains(b, needle)
    ensures !Contains(a + b, needle)
  {
    ContainsIffOccurs(a + b, needle);
    ContainsIffOccurs(b, needle);
    forall i ensures !OccursAt(a + b, needle, i) {
      if 0 <= i < |a| && i + |needle| <= |a + b| {
        assert (a + b)[i..i + |needle|][0] == a[i];
      } else if |a| <= i && i + |needle| <= |a + b| {
        assert (a + b)[i..i + |needle|] == b[i - |a|..i - |a| + |needle|];
        assert !OccursAt(b, needle, i - |a|);
      }
    }
  }

  /** The result screen tells right from wrong by looking for "Correct" in the feedback;
      that test is exact as long as no option itself contains "Correct". */
  lemma FeedbackSaysCorrect(poll: Option<QuizPoll>, selected: int)
    requires poll.Some? ==> forall i :: 0 <= i < |poll.value.options| ==> !Contains(poll.value.options[i], "Correct")
    ensures Contains(Feedback(poll, selected), "Correct") <==>
              poll.Some? && poll.value.correctAnswer == Some(selected)
  {
    if poll.Some? && poll.value.correctAnswer == Some(selected) {
      var f := CorrectFeedback(poll.value.points);
      var tail := "! You earned " + IntString(poll.value.points) + " points!";
      assert f == "\U{1F389} " + "Correct" + tail;
      OccursBetween("\U{1F389} ", "Correct", tail);
      ContainsIffOccurs(f, "Correct");
    } else {
      var shown := if poll.Some? then OptionAt(poll.value.options, OrZero(poll.value.correctAnswer)) else None;
      assert forall i :: 0 <= i < |IncorrectPrefix| ==> IncorrectPrefix[i] != 'C';
      if shown.Some? {
        var k := OrZero(poll.value.correctAnswer);
        assert shown.value == poll.value.options[k];
        PrefixWithoutFirstLetter(IncorrectPrefix, shown.value, "Correct");
      } else {
        NoFirstLetter(IncorrectPrefix + "undefined", "Correct");
      }
    }
  }

  /** The demo poll: option B earns its fifty points, any other names option B. */
  lemma MockPollFeedback()
    ensures Feedback(Some(MockPoll), 1) == "\U{1F389} Correct! You earned 50 points!"
    ensures Feedback(Some(MockPoll), 0) == IncorrectPrefix + "Type safety and better IDE support"
    ensures Feedback(None, 1) == IncorrectPrefix + "undefined"
  {
    assert Decimal(50) == "50";
  }

  // ------------------------------------------------------------------
  // The screen
  // ------------------------------------------------------------------

  class ActivePollView {
    var activePoll: Option<QuizPoll>
    var selectedOption: Option<int>
    var submitted: bool
    var timeLeft: Option<int>
    var feedback: Option<string>
    var isConnected: bool
    var meetingCode: string
    /** Whether the countdown interval is set. */
    var timerRunning: bool

    ghost predicate Valid()
      reads this
    {
      && (timerRunning ==> isConnected && timeLeft.Some? && timeLeft.value > 0)
      && (timeLeft.Some? ==> 0 <= timeLeft.value <= StartSeconds)
      && (activePoll.Some? ==> activePoll.value == MockPoll)
      && (submitted ==> feedback.Some?)
      && (forall i :: 0 <= i < |meetingCode| ==> !('a' <= meetingCode[i] <= 'z'))
    }

    /** The join form: nothing chosen, nothing shown, no code typed. */
    constructor ()
      ensures Valid()
      ensures activePoll == None && selectedOption == None && !submitted && timeLeft == None
      ensures feedback == None && !isConnected && meetingCode == "" && !timerRunning
    {
      activePoll, selectedOption, submitted, timeLeft := None, None, false, None;
      feedback, isConnected, meetingCode, timerRunning := None, false, "", false;
    }

    /** Typing in the code field stores the text upper-cased. */
    method SetMeetingCode(input: string)
      requires Valid()
      modifies this`meetingCode
      ensures Valid()
      ensures meetingCode == Upper(input)
    {
      meetingCode := Upper(input);
    }

    /** `handleJoinMeeting`: a code that is not blank connects; connecting shows the demo
        poll with a fresh thirty-second countdown and clears the previous answer. */
    method HandleJoinMeeting()
      requires Valid()
      modifies this
      ensures Valid()
      ensures Trim(meetingCode) == "" || old(isConnected) ==> unchanged(this)
      ensures Trim(meetingCode) != "" && !old(isConnected) ==>
                && isConnected && meetingCode == old(meetingCode)
                && activePoll == Some(MockPoll) && timeLeft == Some(StartSeconds) && timerRunning
                && !submitted && selectedOption == None && feedback == None
    {
      if Trim(meetingCode) != "" && !isConnected {
        isConnected := true;
        activePoll := Some(MockPoll);
        timeLeft := Some(StartSeconds);
        submitted := false;
        selectedOption := None;
        feedback := None;
        timerRunning := true;
      }
    }

    /** One second of the countdown; the interval clears itself when it reaches zero. */
    method Tick()
      requires Valid()
      modifies this`timeLeft, this`timerRunning
      ensures Valid()
      ensures old(timerRunning) ==> timeLeft == Some(CountdownStep(old(timeLeft)))
                                    && (timerRunning <==> timeLeft.value > 0)
      ensures !old(timerRunning) ==> timeLeft == old(timeLeft) && !timerRunning
    {
      if timerRunning {
        var n := CountdownStep(timeLeft);
        timeLeft := Some(n);
        if n == 0 {
          timerRunning := false;
        }
      }
    }

    /** Choosing an option. */
    method SelectOption(index: int)
      requires Valid()
      modifies this`selectedOption
      ensures Valid()
      ensures selectedOption == Some(index)
    {
      selectedOption := Some(index);
    }

    /** Whether the submit button can be pressed. */
    function SubmitEnabled(): (r: bool)
      reads this
      ensures r <==> selectedOption.Some? && timeLeft != Some(0)
    {
      selectedOption.Some? && timeLeft != Some(0)
    }

    /** `handleSubmit`: without a choice nothing happens; otherwise the answer is marked
        submitted and the feedback for the choice is shown. */
    method HandleSubmit()
      requires Valid()
      modifies this`submitted, this`feedback
      ensures Valid()
      ensures old(selectedOption).None? ==> submitted == old(submitted) && feedback == old(feedback)
      ensures old(selectedOption).Some? ==>
                submitted && feedback == Some(Feedback(activePoll, selectedOption.value))
    {
      if selectedOption.None? {
        return;
      }
      submitted := true;
      feedback := Some(Feedback(activePoll, selectedOption.value));
    }

    /** "Leave Session": back to the join form; the interval is cleared and the rest of
        the screen's state is kept. */
    method LeaveSession()
      requires Valid()
      modifies this`isConnected, this`timerRunning
      ensures Valid()
      ensures !isConnected && !timerRunning
    {
      isConnected := false;
      timerRunning := false;
    }
  }

  /** The code typed in the demonstration is not blank once upper-cased and trimmed. */
  lemma DemoCodeNotBlank()
    ensures Trim(Upper(" abc123 ")) != ""
  {
    var u := Upper(" abc123 ");
    assert u[1] == 'A' && !IsWhitespace(u[1]);
    TrimEmptyIffBlank(u);
  }

  /** A student types a code with spaces and lower-case letters and joins: the demo poll
      is on screen with a fresh countdown. */
  method JoinDemo() returns (v: ActivePollView)
    ensures fresh(v) && v.Valid() && v.isConnected
    ensures v.activePoll == Some(MockPoll) && v.timeLeft == Some(StartSeconds) && v.timerRunning
    ensures !v.submitted && v.selectedOption == None && v.feedback == None
  {
    v := new ActivePollView();
    v.SetMeetingCode(" abc123 ");
    DemoCodeNotBlank();
    v.HandleJoinMeeting();
  }

  /** A student who joins and answers B within the time sees the correct-answer message. */
  method AnswerInTime() returns (v: ActivePollView)
    ensures fresh(v) && v.Valid()
    ensures v.submitted && v.feedback == Some("\U{1F389} Correct! You earned 50 points!")
  {
    v := JoinDemo();
    v.Tick();
    assert v.timeLeft == Some(StartSeconds - 1);
    v.SelectOption(1);
    assert v.SubmitEnabled();
    v.HandleSubmit();
    assert v.feedback == Some(Feedback(Some(MockPoll), 1));
    MockPollFeedback();
  }

  /** Once the countdown has run out, the submit button is disabled whatever option is
      chosen: after joining, `ticks` seconds of at least thirty leave the count at zero. */
  method TimeRunsOut(ticks: nat, choice: int) returns (v: ActivePollView)
    requires ticks >= StartSeconds
    ensures v.timeLeft == Some(0) && !v.timerRunning
    ensures v.selectedOption == Some(choice)
    ensures !v.SubmitEnabled()
  {
    v := JoinDemo();
    RunDown(v, ticks);
    v.SelectOption(choice);
  }

  /** `ticks` seconds of a countdown started at thirty. */
  method RunDown(v: ActivePollView, ticks: nat)
    requires v.Valid() && v.timeLeft == Some(StartSeconds) && v.timerRunning
    requires ticks >= StartSeconds
    modifies v
    ensures v.Valid() && v.timeLeft == Some(0) && !v.timerRunning
  {
    var i := 0;
    while i < ticks
      invariant 0 <= i <= ticks
      invariant v.Valid() && v.timeLeft.Some?
      invariant v.timeLeft == Countdown(Some(StartSeconds), i)
      invariant v.timerRunning <==> v.timeLeft.value > 0
    {
      ghost var before := v.timeLeft;
      v.Tick();
      assert v.timeLeft == Some(CountdownStep(before));
      i := i + 1;
    }
    CountdownAfter(StartSeconds, ticks);
  }
}

=== FILE: audio_recorder.dfy ===
/** The host's recorder (`AudioRecorder`): start, pause and stop a microphone recording,
    count its seconds, collect the recorded chunks, and hand the recording over for
    transcription, which answers with a transcript and generated poll questions. The
    microphone, the media recorder and the upload are parameters of the operations. */
module Recorder {
  import opened Common
  import opened Auth

  /** The recorder's state record: recording, paused, seconds counted, and waiting for
      the upload's answer. */
  datatype RecordingState = RecordingState(isRecording: bool, isPaused: bool, duration: nat, isProcessing: bool)

  /** How the upload ended: the request failed outright, the server answered with an
      error status, the server reported failure, or it returned a transcript and a number
      of generated questions. */
  datatype UploadOutcome =
    | NetworkFailure(message: string)
    | HttpFailure(statusText: string)
    | ServiceFailure(reported: Option<string>)
    | Generated(transcript: string, questionCount: nat)

  const MicrophoneError := "Failed to access microphone. Please check permissions."
  const StartedMessage := "Recording started! Speak clearly into your microphone."
  const NoAudioError := "No audio data recorded"

  /** The error shown for a failed upload. */
  function UploadError(outcome: UploadOutcome): string
    requires !outcome.Generated?
  {
    match outcome
    case NetworkFailure(m) => m
    case HttpFailure(t) => "Upload failed: " + t
    case ServiceFailure(m) => if Truthy(m) then m.value else "Processing failed"
  }

  function GeneratedMessage(count: nat): string {
    "\U{1F916} AI Generated " + Decimal(count) + " poll questions from your recording!"
  }

  /** The host id sent with the upload: the signed-in user's e-mail, else "anonymous". */
  function UploadHostId(user: Option<User>): (r: string)
    ensures r != ""
    ensures user.Some? && Truthy(user.value.email) ==> r == user.value.email.value
    ensures user.None? || !Truthy(user.value.email) ==> r == "anonymous"
  {
    if user.Some? && Truthy(user.value.email) then user.value.email.value else "anonymous"
  }

  // ------------------------------------------------------------------
  // Duration display
  // ------------------------------------------------------------------

  /** Two digits, padded with a leading zero. */
  function Pad2(n: nat): (r: string)
    requires n < 100
    ensures |r| == 2 && IsDigit(r[0]) && IsDigit(r[1])
    ensures DigitsValue(r) == n
  {
    DecimalValue(n);
    if n < 10 then
      assert DigitsValue("0" + Decimal(n)) == DigitsValue(Decimal(n));
      "0" + Decimal(n)
    else Decimal(n)
  }

  /** `formatDuration`: minutes, a colon, and the seconds as two digits. */
  function FormatDuration(seconds: nat): string {
    Decimal(seconds / 60) + ":" + Pad2(seconds % 60)
  }

  /** Reads a `m:ss` display back into seconds. */
  function ParseDuration(s: string): Option<nat> {
    if |s| >= 4 && s[|s| - 3] == ':'
       && (forall i :: 0 <= i < |s| - 3 ==> IsDigit(s[i]))
       && IsDigit(s[|s| - 2]) && IsDigit(s[|s| - 1])
       && DigitsValue(s[|s| - 2..]) < 60
    then Some(DigitsValue(s[..|s| - 3]) * 60 + DigitsValue(s[|s| - 2..]))
    else None
  }

  /** The display shows exactly the seconds counted: reading it back gives them again,
      and its last two characters are always the seconds within the minute. */
  lemma FormatDurationRoundTrip(seconds: nat)
    ensures ParseDuration(FormatDuration(seconds)) == Some(seconds)
    ensures |FormatDuration(seconds)| >= 4
    ensures FormatDuration(seconds)[|FormatDuration(seconds)| - 3] == ':'
  {
    var m := Decimal(seconds / 60);
    var p := Pad2(seconds % 60);
    var f := FormatDuration(seconds);
    assert f == m + ":" + p;
    assert f[..|f| - 3] == m;
    assert f[|f| - 2..] == p;
    DecimalValue(seconds / 60);
  }

  /** The duration line under the status: shown only while recording, as `m:ss`. */
  function DurationLine(st: RecordingState): (r: Option<string>)
    ensures r.Some? <==> st.isRecording
    ensures r.Some? ==> ParseDuration(r.value) == Some(st.duration)
  {
    if st.isRecording then
      FormatDurationRoundTrip(st.duration);
      Some(FormatDuration(st.duration))
    else None
  }

  // ------------------------------------------------------------------
  // Status line
  // ------------------------------------------------------------------

  /** `getRecordingStatus`, by precedence: processing, paused, recording, ready; the text
      tells which of the four states the recorder is in. */
  function RecordingStatus(st: RecordingState): (r: string)
    ensures r == "Processing audio..." <==> st.isProcessing
    ensures r == "Recording paused" <==> !st.isProcessing && st.isRecording && st.isPaused
    ensures r == "Recording in progress..." <==> !st.isProcessing && st.isRecording && !st.isPaused
    ensures r == "Ready to record" <==> !st.isProcessing && !st.isRecording
  {
    if st.isProcessing then "Processing audio..."
    else if st.isRecording && st.isPaused then "Recording paused"
    else if st.isRecording then "Recording in progress..."
    else "Ready to record"
  }

  /** `getStatusColor`: one colour per status. */
  function StatusColor(st: RecordingState): string {
    if st.isProcessing then "text-yellow-600"
    else if st.isRecording && st.isPaused then "text-orange-600"
    else if st.isRecording then "text-red-600"
    else "text-gray-600"
  }

  /** The colour and the status text always change together. */
  lemma StatusColorMatchesStatus(a: RecordingState, b: RecordingState)
    ensures RecordingStatus(a) == RecordingStatus(b) <==> StatusColor(a) == StatusColor(b)
  {
  }

  // ------------------------------------------------------------------
  // The recorder
  // ------------------------------------------------------------------

  class AudioRecorder {
    var state: RecordingState
    /** Sizes of the chunks recorded so far. */
    var chunks: seq<nat>
    /** A media recorder has been created. */
    var hasRecorder: bool
    /** The microphone stream is open. */
    var micOpen: bool
    /** Whether the interval reference holds a timer. */
    var timerRef: bool
    /** Duration timers still running (a timer is only cleared through the reference). */
    var liveTimers: nat
    var error: string
    var success: string
    var transcript: string
    /** Question counts handed to the parent page, oldest first. */
    var delivered: seq<nat>

    ghost predicate Valid()
      reads this
    {
      && (timerRef ==> liveTimers >= 1)
      && (state.isPaused ==> state.isRecording)
      && (state.isRecording ==> hasRecorder && timerRef)
      && (micOpen <==> state.isRecording)
    }

    constructor ()
      ensures Valid()
      ensures state == RecordingState(false, false, 0, false)
      ensures chunks == [] && !hasRecorder && !micOpen && !timerRef && liveTimers == 0
      ensures error == "" && success == "" && transcript == "" && delivered == []
    {
      state := RecordingState(false, false, 0, false);
      chunks, hasRecorder, micOpen, timerRef, liveTimers := [], false, false, false, 0;
      error, success, transcript, delivered := "", "", "", [];
    }

    /** `startRecording`: clears the messages; without the microphone reports an error;
        with it, starts afresh from no chunks and zero seconds with a new timer. */
    method StartRecording(micGranted: bool)
      requires Valid()
      modifies this
      ensures Valid()
      ensures !micGranted ==> error == MicrophoneError && success == "" && state == old(state)
                              && chunks == old(chunks) && liveTimers == old(liveTimers)
                              && hasRecorder == old(hasRecorder) && micOpen == old(micOpen)
                              && timerRef == old(timerRef)
      ensures micGranted ==>
                && error == "" && success == StartedMessage
                && state == old(state).(isRecording := true, duration := 0)
                && chunks == [] && hasRecorder && micOpen && timerRef
                && liveTimers == old(liveTimers) + 1
      ensures transcript == old(transcript) && delivered == old(delivered)
    {
      error, success := "", "";
      if !micGranted {
        error := MicrophoneError;
        return;
      }
      micOpen := true;
      chunks := [];
      hasRecorder := true;
      state := state.(isRecording := true, duration := 0);
      timerRef := true;
      liveTimers := liveTimers + 1;
      success := StartedMessage;
    }

    /** One second passes: every running timer adds a second, paused or not. */
    method Tick()
      requires Valid()
      modifies this`state
      ensures Valid()
      ensures state == old(state).(duration := old(state).duration + liveTimers)
    {
      state := state.(duration := state.duration + liveTimers);
    }

    /** The recorder delivers a chunk; empty chunks are dropped. */
    method OnDataAvailable(size: nat)
      requires Valid()
      modifies this`chunks
      ensures Valid()
      ensures size > 0 ==> chunks == old(chunks) + [size]
      ensures size == 0 ==> chunks == old(chunks)
    {
      if size > 0 {
        chunks := chunks + [size];
      }
    }

    /** `stopRecording`: only while recording; closes the microphone, clears the timer and
        waits for processing. */
    method StopRecording()
      requires Valid()
      modifies this
      ensures Valid()
      ensures old(state.isRecording) ==>
                && state == old(state).(isRecording := false, isPaused := false, isProcessing := true)
                && !micOpen && !timerRef && liveTimers == old(liveTimers) - 1
      ensures !old(state.isRecording) ==>
                state == old(state) && micOpen == old(micOpen) && timerRef == old(timerRef)
                && liveTimers == old(liveTimers)
      ensures chunks == old(chunks) && error == old(error) && success == old(success)
      ensures delivered == old(delivered) && hasRecorder == old(hasRecorder)
      ensures transcript == old(transcript)
    {
      if hasRecorder && state.isRecording {
        micOpen := false;
        timerRef := false;
        liveTimers := liveTimers - 1;
        state := state.(isRecording := false, isPaused := false, isProcessing := true);
      }
    }

    /** `pauseRecording`: while recording, pauses or resumes. */
    method PauseRecording()
      requires Valid()
      modifies this`state
      ensures Valid()
      ensures old(state.isRecording) ==> state == old(state).(isPaused := !old(state.isPaused))
      ensures !old(state.isRecording) ==> state == old(state)
    {
      if hasRecorder && state.isRecording {
        state := state.(isPaused := !state.isPaused);
      }
    }

    /** `processRecording`, run when the recorder stops: nothing recorded is an error;
        otherwise the upload's outcome is reported, and a success shows the transcript and
        hands the questions to the page. Processing ends in every case. */
    method ProcessRecording(outcome: UploadOutcome)
      requires Valid()
      modifies this
      ensures Valid()
      ensures state == old(state).(isProcessing := false)
      ensures old(chunks) == [] ==>
                error == NoAudioError && transcript == old(transcript) && delivered == old(delivered)
                && success == old(success)
      ensures old(chunks) != [] && !outcome.Generated? ==>
                error == UploadError(outcome) && transcript == old(transcript) && delivered == old(delivered)
                && success == old(success)
      ensures old(chunks) != [] && outcome.Generated? ==>
                && transcript == outcome.transcript && error == old(error)
                && success == GeneratedMessage(outcome.questionCount)
                && delivered == old(delivered) + [outcome.questionCount]
      ensures chunks == old(chunks) && micOpen == old(micOpen) && liveTimers == old(liveTimers)
      ensures hasRecorder == old(hasRecorder) && timerRef == old(timerRef)
    {
      if chunks == [] {
        error := NoAudioError;
      } else if !outcome.Generated? {
        error := UploadError(outcome);
      } else {
        transcript := outcome.transcript;
        success := GeneratedMessage(outcome.questionCount);
        delivered := delivered + [outcome.questionCount];
      }
      state := state.(isProcessing := false);
    }

    /** The unmount clean-up as registered: it calls the `stopRecording` of the first
        render, whose state says "not recording", so only the timer is cleared. */
    method UnmountAsWritten()
      requires Valid()
      modifies this`liveTimers
      ensures timerRef ==> liveTimers == old(liveTimers) - 1
      ensures !timerRef ==> liveTimers == old(liveTimers)
    {
      if timerRef {
        liveTimers := liveTimers - 1;
      }
    }

    /** The unmount clean-up stopping the recording under way: the microphone is closed and
        no timer started by this recording keeps running. */
    method Unmount()
      requires Valid()
      modifies this
      ensures Valid()
      ensures !micOpen
      ensures !state.isRecording && !timerRef
      ensures liveTimers == old(liveTimers) - (if old(timerRef) then 1 else 0)
      ensures state == if old(state.isRecording)
                       then old(state).(isRecording := false, isPaused := false, isProcessing := true)
                       else old(state)
      ensures chunks == old(chunks) && hasRecorder == old(hasRecorder) && delivered == old(delivered)
      ensures error == old(error) && success == old(success) && transcript == old(transcript)
    {
      StopRecording();
      if timerRef {
        liveTimers := liveTimers - 1;
        timerRef := false;
      }
    }
  }

  /** Start and ten seconds: the duration line reads 0:10; then stop: the line is gone,
      the recorded duration stays ten seconds, and the recording is processed into three
      questions once a chunk has arrived. */
  method RecordTenSeconds() returns (r: AudioRecorder, shown: Option<string>)
    ensures fresh(r) && r.Valid()
    ensures shown == Some("0:10")
    ensures r.state.duration == 10 && DurationLine(r.state) == None
    ensures !r.state.isRecording && !r.state.isProcessing && !r.micOpen && r.liveTimers == 0
    ensures r.delivered == [3] && r.success == GeneratedMessage(3)
  {
    r := new AudioRecorder();
    r.StartRecording(true);
    var i := 0;
    while i < 10
      invariant 0 <= i <= 10
      invariant r.Valid() && r.state.isRecording && r.liveTimers == 1 && r.state.duration == i
      invariant r.delivered == [] && r.chunks == []
    {
      r.Tick();
      i := i + 1;
    }
    assert Decimal(0) == "0" && Decimal(10) == "10";
    assert FormatDuration(10) == "0:10";
    shown := DurationLine(r.state);
    r.OnDataAvailable(4096);
    r.StopRecording();
    r.ProcessRecording(Generated("hello", 3));
  }

  /** Leaving the page in the middle of a recording: as written the microphone stays
      open and the recording goes on; stopping it on unmount closes both. */
  method LeaveWhileRecording() returns (asWritten: AudioRecorder, corrected: AudioRecorder)
    ensures fresh(asWritten) && asWritten.micOpen && asWritten.state.isRecording
    ensures fresh(corrected) && !corrected.micOpen && !corrected.state.isRecording && corrected.liveTimers == 0
  {
    asWritten := new AudioRecorder();
    asWritten.StartRecording(true);
    asWritten.UnmountAsWritten();
    corrected := new AudioRecorder();
    corrected.StartRecording(true);
    corrected.Unmount();
  }
}

=== FILE: auth.dfy ===
/** The mock authentication state of the client (`AuthProvider`): the signed-in user,
    the loading flag, and the browser's key/value storage, where the user is saved as
    JSON under "mockUser" and the chosen role as plain text under "userRole". */
module Auth {
  import opened Common

  const HostRole := "host"
  const ParticipantRole := "participant"
  const UserKey := "mockUser"
  const RoleKey := "userRole"

  /** A signed-in user. The role is `'host' | 'participant' | null` by declaration, but
      the value read back from storage is not checked, so any text can appear here. */
  datatype User = User(uid: string, email: Option<string>, role: Option<string>)

  // ------------------------------------------------------------------
  // JSON.stringify / JSON.parse of a user
  // ------------------------------------------------------------------

  /** String contents with `"` and `\` escaped by a backslash. */
  function Escape(s: string): string {
    if s == [] then []
    else (if s[0] == '"' || s[0] == '\\' then ['\\', s[0]] else [s[0]]) + Escape(s[1..])
  }

  function Quote(s: string): string {
    "\"" + Escape(s) + "\""
  }

  function NullableString(v: Option<string>): string {
    match v
    case None => "null"
    case Some(s) => Quote(s)
  }

  /** `JSON.stringify(user)`: the three keys in declaration order, no white space. */
  function EncodeUser(u: User): string {
    "{\"uid\":" + (Quote(u.uid) + EmailAndRole(u.email, u.role))
  }

  /** The text after the uid: the e-mail and role members and the closing brace. */
  function EmailAndRole(email: Option<string>, role: Option<string>): string {
    ",\"email\":" + (NullableString(email) + RoleMember(role))
  }

  function RoleMember(role: Option<string>): string {
    ",\"role\":" + (NullableString(role) + "}")
  }

  /** The text of a string literal whose opening quote has been consumed, and what
      follows its closing quote. */
  function ReadString(s: string): Option<(string, string)>
    decreases |s|
  {
    if s == [] then None
    else if s[0] == '"' then Some(([], s[1..]))
    else if s[0] == '\\' then
      if |s| >= 2 && (s[1] == '"' || s[1] == '\\') then
        match ReadString(s[2..])
        case None => None
        case Some((t, rest)) => Some(([s[1]] + t, rest))
      else None
    else
      match ReadString(s[1..])
      case None => None
      case Some((t, rest)) => Some(([s[0]] + t, rest))
  }

  function ReadQuoted(s: string): Option<(string, string)> {
    if s != [] && s[0] == '"' then ReadString(s[1..]) else None
  }

  function ReadNullable(s: string): Option<(Option<string>, string)> {
    if IsPrefix("null", s) then Some((None, s[4..]))
    else
      match ReadQuoted(s)
      case None => None
      case Some((t, rest)) => Some((Some(t), rest))
  }

  function Expect(lit: string, s: string): Option<string> {
    if IsPrefix(lit, s) then Some(s[|lit|..]) else None
  }

  /** `JSON.parse` of a saved user, for the layout `JSON.stringify` writes for one; any
      other text is `None`, taken as text the parse rejects. */
  function DecodeUser(s: string): Option<User> {
    match Expect("{\"uid\":", s)
    case None => None
    case Some(r1) => DecodeFields(r1)
  }

  /** The fields of a saved user after the opening `{"uid":`. */
  function DecodeFields(r1: string): Option<User> {
    match ReadQuoted(r1)
    case None => None
    case Some((uid, r2)) => DecodeEmail(uid, r2)
  }

  /** The fields after the uid: `,"email":` and the e-mail or `null`. */
  function DecodeEmail(uid: string, r2: string): Option<User> {
    match Expect(",\"email\":", r2)
    case None => None
    case Some(r3) =>
      match ReadNullable(r3)
      case None => None
      case Some((email, r4)) => DecodeRole(uid, email, r4)
  }

  /** The last field, `,"role":` and the role or `null`, then the closing brace. */
  function DecodeRole(uid: string, email: Option<string>, r4: string): Option<User> {
    match Expect(",\"role\":", r4)
    case None => None
    case Some(r5) =>
      match ReadNullable(r5)
      case None => None
      case Some((role, r6)) =>
        if r6 == "}" then Some(User(uid, email, role)) else None
  }

  lemma {:induction false} ReadStringEscaped(x: string, rest: string)
    ensures ReadString(Escape(x) + "\"" + rest) == Some((x, rest))
  {
    var s := Escape(x) + "\"" + rest;
    if x == [] {
      assert s == "\"" + rest;
    } else {
      ReadStringEscaped(x[1..], rest);
      var tail := Escape(x[1..]) + "\"" + rest;
      if x[0] == '"' || x[0] == '\\' {
        assert s == ['\\', x[0]] + tail;
        assert s[2..] == tail;
      } else {
        assert s == [x[0]] + tail;
        assert s[1..] == tail;
      }
      assert [x[0]] + x[1..] == x;
    }
  }

  lemma ReadQuotedQuote(x: string, rest: string)
    ensures ReadQuoted(Quote(x) + rest) == Some((x, rest))
  {
    var s := Quote(x) + rest;
    assert s == "\"" + (Escape(x) + "\"" + rest);
    assert s[1..] == Escape(x) + "\"" + rest;
    ReadStringEscaped(x, rest);
  }

  lemma ReadNullableString(v: Option<string>, rest: string)
    ensures ReadNullable(NullableString(v) + rest) == Some((v, rest))
  {
    var s := NullableString(v) + rest;
    match v
    case None =>
      assert s[..4] == "null";
      assert s[4..] == rest;
    case Some(x) =>
      assert s[0] == '"';
      assert !IsPrefix("null", s);
      ReadQuotedQuote(x, rest);
  }

  lemma ExpectLiteral(lit: string, rest: string)
    ensures Expect(lit, lit + rest) == Some(rest)
  {
    assert (lit + rest)[..|lit|] == lit;
    assert (lit + rest)[|lit|..] == rest;
  }

  lemma DecodeRoleEncoded(uid: string, email: Option<string>, role: Option<string>)
    ensures DecodeRole(uid, email, RoleMember(role)) == Some(User(uid, email, role))
  {
    ExpectLiteral(",\"role\":", NullableString(role) + "}");
    ReadNullableString(role, "}");
  }

  lemma DecodeEmailEncoded(u: User)
    ensures DecodeEmail(u.uid, EmailAndRole(u.email, u.role)) == Some(u)
  {
    ExpectLiteral(",\"email\":", NullableString(u.email) + RoleMember(u.role));
    ReadNullableString(u.email, RoleMember(u.role));
    DecodeRoleEncoded(u.uid, u.email, u.role);
  }

  /** Parsing what was stringified gives the same user back. */
  lemma DecodeEncodeUser(u: User)
    ensures DecodeUser(EncodeUser(u)) == Some(u)
  {
    var r2 := EmailAndRole(u.email, u.role);
    ExpectLiteral("{\"uid\":", Quote(u.uid) + r2);
    ReadQuotedQuote(u.uid, r2);
    DecodeEmailEncoded(u);
  }

  // ------------------------------------------------------------------
  // What each handler does to storage and to the user
  // ------------------------------------------------------------------

  /** What the mount effect finds under "mockUser": nothing (or the empty text), the
      JSON literal `null`, a saved user, or text the parse rejects. */
  datatype Saved = NothingSaved | SavedNull | SavedUser(user: User) | Unreadable

  function ReadSavedUser(storage: map<string, string>): Saved {
    if UserKey !in storage || storage[UserKey] == "" then NothingSaved
    else if storage[UserKey] == "null" then SavedNull
    else
      match DecodeUser(storage[UserKey])
      case Some(u) => SavedUser(u)
      case None => Unreadable
  }

  /** A user written to storage is the user found there on the next load. */
  lemma SavedUserRestored(storage: map<string, string>, u: User)
    ensures ReadSavedUser(storage[UserKey := EncodeUser(u)]) == SavedUser(u)
  {
    DecodeEncodeUser(u);
  }

  /** `'mock-user-' + Date.now()`. */
  function MockUid(now: nat): string {
    "mock-user-" + Decimal(now)
  }

  /** `localStorage.getItem('userRole') || 'participant'`. */
  function StoredRole(storage: map<string, string>): string {
    if RoleKey in storage && storage[RoleKey] != "" then storage[RoleKey] else ParticipantRole
  }

  /** The user `signIn` creates: the password is not consulted. */
  function SignInUser(email: string, uid: string, storage: map<string, string>): User {
    User(uid, Some(email), Some(StoredRole(storage)))
  }

  /** The user `signUp` creates: a null role becomes 'participant'. */
  function SignUpUser(email: string, uid: string, role: Option<string>): User {
    User(uid, Some(email), if Truthy(role) then role else Some(ParticipantRole))
  }

  /** Storage after `signUp`: the user is saved, the role only when one was given. */
  function SignUpStorage(storage: map<string, string>, u: User, role: Option<string>): map<string, string> {
    var withUser := storage[UserKey := EncodeUser(u)];
    if Truthy(role) then withUser[RoleKey := role.value] else withUser
  }

  /** After signing up, the next load finds the new user, whether or not a role was saved. */
  lemma SignUpStorageRestores(storage: map<string, string>, u: User, role: Option<string>)
    ensures ReadSavedUser(SignUpStorage(storage, u, role)) == SavedUser(u)
  {
    var withUser := storage[UserKey := EncodeUser(u)];
    assert SignUpStorage(storage, u, role)[UserKey] == withUser[UserKey];
    SavedUserRestored(storage, u);
  }

  /** Storage after `setUserRole`: a role is stored, null removes it. */
  function RoleStorage(storage: map<string, string>, role: Option<string>): map<string, string> {
    if Truthy(role) then storage[RoleKey := role.value] else storage - {RoleKey}
  }

  /** `signIn` always yields a user with a role: the stored one, or 'participant'. */
  lemma SignInRole(email: string, uid: string, storage: map<string, string>)
    ensures SignInUser(email, uid, storage).role.Some?
    ensures RoleKey !in storage ==> SignInUser(email, uid, storage).role == Some(ParticipantRole)
    ensures RoleKey in storage && storage[RoleKey] != "" ==>
              SignInUser(email, uid, storage).role == Some(storage[RoleKey])
  {
  }

  /** Signing up with a role and later signing in again gives that role back. */
  lemma SignUpThenSignIn(storage: map<string, string>, email: string, uid1: string, uid2: string, role: string)
    requires role != ""
    ensures SignInUser(email, uid2, SignUpStorage(storage, SignUpUser(email, uid1, Some(role)), Some(role))).role
            == Some(role)
  {
  }

  /** Signing up without a role leaves an earlier stored role in place, so a later
      sign-in takes that role and not 'participant'. */
  lemma SignUpWithoutRoleKeepsStoredRole(storage: map<string, string>, email: string, uid1: string, uid2: string)
    requires RoleKey in storage && storage[RoleKey] == HostRole
    ensures SignUpUser(email, uid1, None).role == Some(ParticipantRole)
    ensures SignInUser(email, uid2, SignUpStorage(storage, SignUpUser(email, uid1, None), None)).role
            == Some(HostRole)
  {
  }

  /** `setUserRole` rewrites "userRole" but not the saved "mockUser", so after a reload
      the restored user has the role it was saved with. */
  lemma RoleChangeNotSaved(storage: map<string, string>, u: User, role: Option<string>)
    ensures ReadSavedUser(RoleStorage(storage[UserKey := EncodeUser(u)], role)) == SavedUser(u)
  {
    var st := storage[UserKey := EncodeUser(u)];
    assert RoleStorage(st, role)[UserKey] == EncodeUser(u);
    DecodeEncodeUser(u);
  }

  /** Same person, possibly with a different role. */
  predicate SameAccount(a: User, b: User) {
    a.uid == b.uid && a.email == b.email
  }

  class AuthProvider {
    var currentUser: Option<User>
    var loading: bool
    var storage: map<string, string>

    /** The signed-in user is the one saved in storage, up to its role. */
    ghost predicate Valid()
      reads this
    {
      currentUser.Some? ==>
        ReadSavedUser(storage).SavedUser? && SameAccount(ReadSavedUser(storage).user, currentUser.value)
    }

    /** The first render: nobody signed in yet, still loading. */
    constructor (saved: map<string, string>)
      ensures Valid()
      ensures currentUser == None && loading && storage == saved
    {
      currentUser, loading, storage := None, true, saved;
    }

    /** The mount effect: restores a saved user (or `null`) and stops loading; when the
        saved text does not parse, the effect throws before loading is turned off. */
    method LoadSavedUser()
      requires Valid()
      modifies this
      ensures Valid()
      ensures storage == old(storage)
      ensures ReadSavedUser(storage).NothingSaved? ==> currentUser == old(currentUser) && !loading
      ensures ReadSavedUser(storage).SavedNull? ==> currentUser == None && !loading
      ensures ReadSavedUser(storage).SavedUser? ==>
                currentUser == Some(ReadSavedUser(storage).user) && !loading
      ensures ReadSavedUser(storage).Unreadable? ==> currentUser == old(currentUser) && loading == old(loading)
    {
      match ReadSavedUser(storage)
      case NothingSaved =>
        loading := false;
      case SavedNull =>
        currentUser := None;
        loading := false;
      case SavedUser(u) =>
        currentUser := Some(u);
        loading := false;
      case Unreadable =>
    }

    /** Children are rendered only once loading has finished. */
    function RendersChildren(): (r: bool)
      reads this
      ensures r <==> !loading
    {
      !loading
    }

    /** `signIn`: always succeeds, whatever the password; the role is the stored one. */
    method SignIn(email: string, password: string, now: nat)
      requires Valid()
      modifies this
      ensures Valid()
      ensures currentUser == Some(SignInUser(email, MockUid(now), old(storage)))
      ensures storage == old(storage)[UserKey := EncodeUser(currentUser.value)]
      ensures loading == old(loading)
    {
      var u := SignInUser(email, MockUid(now), storage);
      currentUser := Some(u);
      storage := storage[UserKey := EncodeUser(u)];
      SavedUserRestored(old(storage), u);
    }

    /** `signUp`: saves the new user, and the role only when one was given. */
    method SignUp(email: string, password: string, role: Option<string>, now: nat)
      requires Valid()
      modifies this
      ensures Valid()
      ensures currentUser == Some(SignUpUser(email, MockUid(now), role))
      ensures storage == SignUpStorage(old(storage), currentUser.value, role)
      ensures loading == old(loading)
    {
      var u := SignUpUser(email, MockUid(now), role);
      currentUser := Some(u);
      SignUpStorageRestores(storage, u, role);
      storage := SignUpStorage(storage, u, role);
    }

    /** `signOut`: nobody signed in, and both keys removed from storage. */
    method SignOut()
      requires Valid()
      modifies this
      ensures Valid()
      ensures currentUser == None
      ensures storage == old(storage) - {UserKey, RoleKey}
      ensures UserKey !in storage && RoleKey !in storage
      ensures loading == old(loading)
    {
      currentUser := None;
      storage := storage - {UserKey, RoleKey};
    }

    /** `setUserRole`: stores or removes the role, and changes the role of the signed-in
        user only; it never signs anybody in. */
    method SetUserRole(role: Option<string>)
      requires Valid()
      modifies this
      ensures Valid()
      ensures storage == RoleStorage(old(storage), role)
      ensures old(currentUser).None? ==> currentUser == None
      ensures old(currentUser).Some? ==> currentUser == Some(old(currentUser).value.(role := role))
      ensures loading == old(loading)
    {
      storage := RoleStorage(storage, role);
      assert UserKey in old(storage) ==> storage[UserKey] == old(storage)[UserKey];
      if currentUser.Some? {
        currentUser := Some(currentUser.value.(role := role));
      }
    }
  }

  /** The provider's first render followed by its mount effect: the children appear
      exactly when the saved text is absent, `null` or a saved user, and then the user
      on screen is the saved one, if any. */
  method Mount(saved: map<string, string>) returns (p: AuthProvider)
    ensures p.RendersChildren() <==> !ReadSavedUser(saved).Unreadable?
    ensures ReadSavedUser(saved).SavedUser? ==> p.currentUser == Some(ReadSavedUser(saved).user)
    ensures !ReadSavedUser(saved).SavedUser? ==> p.currentUser == None
    ensures p.storage == saved
  {
    p := new AuthProvider(saved);
    p.LoadSavedUser();
  }
}

=== FILE: common.dfy ===
/** Values and helpers shared by several views of the poll application:
    optional values, ASCII case folding and trimming, decimal rendering,
    array `filter`, `Set`-based de-duplication, `Math.round` percentages,
    the tri-state "all / yes / no" selectors and the response-time colour. */
module Common {

  datatype Option<T> = None | Some(value: T)

  /** JavaScript truthiness of a `string | null` value: null and "" are falsy. */
  predicate Truthy(s: Option<string>) {
    s.Some? && s.value != ""
  }

  // ------------------------------------------------------------------
  // Characters and strings (ASCII subset of JavaScript's String methods)
  // ------------------------------------------------------------------

  function LowerChar(c: char): char {
    if 'A' <= c <= 'Z' then (c as int + 32) as char else c
  }

  function UpperChar(c: char): char {
    if 'a' <= c <= 'z' then (c as int - 32) as char else c
  }

  /** `String.prototype.toLowerCase`, ASCII letters only. */
  function Lower(s: string): (r: string)
    ensures |r| == |s|
    ensures forall i :: 0 <= i < |s| ==> r[i] == LowerChar(s[i])
  {
    seq(|s|, i requires 0 <= i < |s| => LowerChar(s[i]))
  }

  /** `String.prototype.toUpperCase`, ASCII letters only. */
  function Upper(s: string): (r: string)
    ensures |r| == |s|
    ensures forall i :: 0 <= i < |s| ==> r[i] == UpperChar(s[i])
    ensures forall i :: 0 <= i < |s| ==> !('a' <= r[i] <= 'z')
  {
    seq(|s|, i requires 0 <= i < |s| => UpperChar(s[i]))
  }

  /** The white-space and line-terminator characters `trim` removes
      (the ASCII ones, no-break space and the byte-order mark). */
  predicate IsWhitespace(c: char) {
    c == ' ' || c == '\t' || c == '\n' || c == '\r' || c == '\U{000B}' || c == '\U{000C}'
    || c == '\U{00A0}' || c == '\U{FEFF}'
  }

  function TrimStart(s: string): (r: string)
    ensures |r| <= |s| && r == s[|s| - |r|..]
    ensures r != [] ==> !IsWhitespace(r[0])
    ensures forall i :: 0 <= i < |s| - |r| ==> IsWhitespace(s[i])
  {
    if s != [] && IsWhitespace(s[0]) then TrimStart(s[1..]) else s
  }

  function TrimEnd(s: string): (r: string)
    ensures |r| <= |s| && r == s[..|r|]
    ensures r != [] ==> !IsWhitespace(r[|r| - 1])
    ensures forall i :: |r| <= i < |s| ==> IsWhitespace(s[i])
  {
    if s != [] && IsWhitespace(s[|s| - 1]) then TrimEnd(s[..|s| - 1]) else s
  }

  /** `String.prototype.trim`. */
  function Trim(s: string): string {
    TrimEnd(TrimStart(s))
  }

  /** A string trims to the empty string exactly when every character is white space. */
  lemma TrimEmptyIffBlank(s: string)
    ensures Trim(s) == [] <==> forall i :: 0 <= i < |s| ==> IsWhitespace(s[i])
  {
    var t := TrimStart(s);
    if Trim(s) == [] {
      assert t == [];
    } else {
      var r := Trim(s);
      assert r[0] == t[0];
      assert !IsWhitespace(s[|s| - |t|]);
    }
  }

  predicate IsPrefix(p: string, s: string) {
    |p| <= |s| && s[..|p|] == p
  }

  /** `hay.includes(needle)`. */
  predicate Contains(hay: string, needle: string)
    decreases |hay|
  {
    IsPrefix(needle, hay) || (hay != [] && Contains(hay[1..], needle))
  }

  ghost predicate OccursAt(hay: string, needle: string, i: int) {
    0 <= i && i + |needle| <= |hay| && hay[i..i + |needle|] == needle
  }

  /** A needle placed between two strings occurs right after the first. */
  lemma OccursBetween(before: string, needle: string, after: string)
    ensures OccursAt(before + needle + after, needle, |before|)
  {
    assert (before + needle + after)[|before|..|before| + |needle|] == needle;
  }

  /** `Contains` finds exactly the positions where the needle occurs. */
  lemma {:induction false} ContainsIffOccurs(hay: string, needle: string)
    ensures Contains(hay, needle) <==> exists i :: OccursAt(hay, needle, i)
    decreases |hay|
  {
    if IsPrefix(needle, hay) {
      assert OccursAt(hay, needle, 0);
    } else if hay == [] {
      assert needle != [];
    } else {
      ContainsIffOccurs(hay[1..], needle);
      if exists i :: OccursAt(hay[1..], needle, i) {
        var i :| OccursAt(hay[1..], needle, i);
        assert hay[i + 1..i + 1 + |needle|] == hay[1..][i..i + |needle|];
        assert OccursAt(hay, needle, i + 1);
      }
      if exists i :: OccursAt(hay, needle, i) {
        var i :| OccursAt(hay, needle, i);
        assert i != 0;
        assert hay[1..][i - 1..i - 1 + |needle|] == hay[i..i + |needle|];
        assert OccursAt(hay[1..], needle, i - 1);
      }
    }
  }

  /** Two strings of equal length that agree letter by letter up to ASCII case. */
  ghost predicate EqualIgnoringCase(a: string, b: string) {
    |a| == |b| && forall k :: 0 <= k < |a| ==> LowerChar(a[k]) == LowerChar(b[k])
  }

  /** The window of `field` starting at `i` equals `term` up to letter case. */
  ghost predicate MatchesAt(field: string, term: string, i: int) {
    0 <= i && i + |term| <= |field| && EqualIgnoringCase(field[i..i + |term|], term)
  }

  /** `field.toLowerCase().includes(term.toLowerCase())`, the search test of every list view. */
  predicate MatchesIgnoringCase(field: string, term: string) {
    Contains(Lower(field), Lower(term))
  }

  /** The search test is a case-insensitive substring test: it holds exactly when some
      window of the field equals the term up to letter case. */
  lemma MatchesIgnoringCaseSpec(field: string, term: string)
    ensures MatchesIgnoringCase(field, term) <==> exists i :: MatchesAt(field, term, i)
  {
    var lf, lt := Lower(field), Lower(term);
    ContainsIffOccurs(lf, lt);
    if MatchesIgnoringCase(field, term) {
      var i :| OccursAt(lf, lt, i);
      forall k | 0 <= k < |term| ensures LowerChar(field[i..i + |term|][k]) == LowerChar(term[k]) {
        assert lf[i..i + |lt|][k] == lt[k];
      }
      assert MatchesAt(field, term, i);
    }
    if exists i :: MatchesAt(field, term, i) {
      var i :| MatchesAt(field, term, i);
      forall k | 0 <= k < |lt| ensures lf[i..i + |lt|][k] == lt[k] {
        assert field[i..i + |term|][k] == field[i + k];
      }
      assert OccursAt(lf, lt, i);
    }
  }

  /** Typing more of a search term never makes a field match that did not match before. */
  lemma LongerTermMatchesLess(field: string, term: string, more: string)
    requires MatchesIgnoringCase(field, term + more)
    ensures MatchesIgnoringCase(field, term)
  {
    var lf, lt, lm := Lower(field), Lower(term), Lower(more);
    assert Lower(term + more) == lt + lm;
    ContainsIffOccurs(lf, lt + lm);
    var i :| OccursAt(lf, lt + lm, i);
    assert lf[i..i + |lt|] == (lt + lm)[..|lt|] == lt;
    assert OccursAt(lf, lt, i);
    ContainsIffOccurs(lf, lt);
  }

  /** The empty search term matches every field. */
  lemma EmptyTermMatches(field: string)
    ensures MatchesIgnoringCase(field, "")
  {
    assert IsPrefix("", Lower(field));
  }

  // ------------------------------------------------------------------
  // Decimal rendering (`${n}` and `n.toString()` for integers)
  // ------------------------------------------------------------------

  function DigitChar(d: nat): char
    requires d < 10
  {
    ('0' as int + d) as char
  }

  predicate IsDigit(c: char) {
    '0' <= c <= '9'
  }

  function DigitValue(c: char): nat
    requires IsDigit(c)
  {
    c as int - '0' as int
  }

  /** Decimal rendering of a natural number, without leading zeros. */
  function Decimal(n: nat): (r: string)
    ensures |r| >= 1
    ensures forall i :: 0 <= i < |r| ==> IsDigit(r[i])
    ensures n >= 10 <==> |r| >= 2
  {
    if n < 10 then [DigitChar(n)] else Decimal(n / 10) + [DigitChar(n % 10)]
  }

  /** Value of a non-empty run of decimal digits. */
  function DigitsValue(s: string): nat
    requires forall i :: 0 <= i < |s| ==> IsDigit(s[i])
  {
    if s == [] then 0 else DigitsValue(s[..|s| - 1]) * 10 + DigitValue(s[|s| - 1])
  }

  /** Reading back a decimal rendering gives the number. */
  lemma {:induction false} DecimalValue(n: nat)
    ensures DigitsValue(Decimal(n)) == n
  {
    if n >= 10 {
      DecimalValue(n / 10);
      assert Decimal(n)[..|Decimal(n)| - 1] == Decimal(n / 10);
    }
  }

  /** Template-literal rendering of an integer (a leading minus sign when negative). */
  function IntString(i: int): (r: string)
    ensures |r| >= 1
    ensures (r[0] == '-') <==> i < 0
  {
    if i < 0 then "-" + Decimal(-i) else Decimal(i)
  }

  /** Different integers never render alike. */
  lemma IntStringInjective(a: int, b: int)
    requires IntString(a) == IntString(b)
    ensures a == b
  {
    if a < 0 {
      assert IntString(a)[1..] == Decimal(-a) && IntString(b)[1..] == Decimal(-b);
      DecimalValue(-a);
      DecimalValue(-b);
    } else {
      DecimalValue(a);
      DecimalValue(b);
    }
  }

  // ------------------------------------------------------------------
  // Array.prototype.filter and friends
  // ------------------------------------------------------------------

  /** `s.filter(p)`: the elements satisfying p, in their original order. */
  function Filter<T>(s: seq<T>, p: T -> bool): (r: seq<T>)
    ensures |r| <= |s|
  {
    if s == [] then [] else (if p(s[0]) then [s[0]] else []) + Filter(s[1..], p)
  }

  /** The filter keeps exactly the elements that satisfy the predicate. */
  lemma {:induction false} FilterMembers<T>(s: seq<T>, p: T -> bool)
    ensures forall x :: x in Filter(s, p) ==> x in s && p(x)
    ensures forall x :: x in s && p(x) ==> x in Filter(s, p)
  {
    if s != [] {
      FilterMembers(s[1..], p);
      assert s == [s[0]] + s[1..];
    }
  }

  /** `r` keeps some of the elements of `s`, in the same order. */
  predicate IsSubsequence<T(==)>(r: seq<T>, s: seq<T>)
    decreases |s|
  {
    if r == [] then true
    else if s == [] then false
    else (r[0] == s[0] && IsSubsequence(r[1..], s[1..])) || IsSubsequence(r, s[1..])
  }

  lemma {:induction false} FilterIsSubsequence<T>(s: seq<T>, p: T -> bool)
    ensures IsSubsequence(Filter(s, p), s)
  {
    if s != [] {
      FilterIsSubsequence(s[1..], p);
      var r := Filter(s, p);
      if p(s[0]) {
        assert r[0] == s[0] && r[1..] == Filter(s[1..], p);
      } else {
        assert r == Filter(s[1..], p);
      }
    }
  }

  /** A filter whose predicate holds of every element keeps the whole sequence. */
  lemma {:induction false} FilterKeepsAll<T>(s: seq<T>, p: T -> bool)
    requires forall i :: 0 <= i < |s| ==> p(s[i])
    ensures Filter(s, p) == s
  {
    if s != [] {
      FilterKeepsAll(s[1..], p);
      assert [s[0]] + s[1..] == s;
    }
  }

  /** A filter whose predicate holds of no element keeps nothing. */
  lemma {:induction false} FilterKeepsNone<T>(s: seq<T>, p: T -> bool)
    requires forall i :: 0 <= i < |s| ==> !p(s[i])
    ensures Filter(s, p) == []
  {
    if s != [] {
      FilterKeepsNone(s[1..], p);
    }
  }

  /** Two complementary filters split a sequence: together they keep every element once. */
  lemma {:induction false} FilterPartition<T>(s: seq<T>, p: T -> bool, q: T -> bool)
    requires forall x :: q(x) == !p(x)
    ensures |Filter(s, p)| + |Filter(s, q)| == |s|
    ensures multiset(Filter(s, p)) + multiset(Filter(s, q)) == multiset(s)
  {
    if s != [] {
      FilterPartition(s[1..], p, q);
      assert s == [s[0]] + s[1..];
    }
  }

  /** Filtering twice is filtering once by both predicates. */
  lemma {:induction false} FilterFilter<T>(s: seq<T>, p: T -> bool, q: T -> bool, pq: T -> bool)
    requires forall x :: pq(x) == (p(x) && q(x))
    ensures Filter(Filter(s, p), q) == Filter(s, pq)
  {
    if s != [] {
      FilterFilter(s[1..], p, q, pq);
      if p(s[0]) {
        assert Filter(s, p) == [s[0]] + Filter(s[1..], p);
        assert Filter(s, p)[1..] == Filter(s[1..], p);
      } else {
        assert Filter(s, p) == Filter(s[1..], p);
      }
    }
  }

  /** Filters whose predicates agree on every element keep the same elements. */
  lemma {:induction false} FilterCongruent<T>(s: seq<T>, p: T -> bool, q: T -> bool)
    requires forall i :: 0 <= i < |s| ==> p(s[i]) == q(s[i])
    ensures Filter(s, p) == Filter(s, q)
  {
    if s != [] {
      FilterCongruent(s[1..], p, q);
    }
  }

  /** A filter whose predicate implies another's keeps a subsequence of what the other keeps. */
  lemma {:induction false} FilterMonotone<T>(s: seq<T>, p: T -> bool, q: T -> bool)
    requires forall x :: p(x) ==> q(x)
    ensures IsSubsequence(Filter(s, p), Filter(s, q))
    ensures |Filter(s, p)| <= |Filter(s, q)|
  {
    if s != [] {
      FilterMonotone(s[1..], p, q);
      var rp := Filter(s, p);
      var rq := Filter(s, q);
      if p(s[0]) {
        assert rp[0] == s[0] && rp[1..] == Filter(s[1..], p);
        assert rq[0] == s[0] && rq[1..] == Filter(s[1..], q);
      } else if q(s[0]) {
        assert rp == Filter(s[1..], p);
        assert rq[1..] == Filter(s[1..], q);
      } else {
        assert rp == Filter(s[1..], p) && rq == Filter(s[1..], q);
      }
    }
  }

  /** `s.reduce((sum, x) => sum + f(x), 0)`. */
  function Sum<T>(s: seq<T>, f: T -> int): int {
    if s == [] then 0 else f(s[0]) + Sum(s[1..], f)
  }

  /** A sum of non-negative terms over a filtered sequence never exceeds the full sum. */
  lemma {:induction false} SumFilterBound<T>(s: seq<T>, p: T -> bool, f: T -> int)
    requires forall i :: 0 <= i < |s| ==> f(s[i]) >= 0
    ensures 0 <= Sum(Filter(s, p), f) <= Sum(s, f)
  {
    if s != [] {
      SumFilterBound(s[1..], p, f);
      assert f(s[0]) >= 0;
      if p(s[0]) {
        var r := Filter(s, p);
        assert r == [s[0]] + Filter(s[1..], p);
        assert r[0] == s[0] && r[1..] == Filter(s[1..], p);
        assert Sum(r, f) == f(s[0]) + Sum(Filter(s[1..], p), f);
      } else {
        assert Filter(s, p) == Filter(s[1..], p);
      }
    }
  }

  // ------------------------------------------------------------------
  // ['all', ...Array.from(new Set(xs))]
  // ------------------------------------------------------------------

  predicate NoDuplicates<T(==)>(s: seq<T>) {
    forall i, j :: 0 <= i < j < |s| ==> s[i] != s[j]
  }

  /** Index of the first occurrence of x in s. */
  ghost function FirstIndex<T>(s: seq<T>, x: T): (k: nat)
    requires x in s
    ensures k < |s| && s[k] == x && x !in s[..k]
  {
    if s[0] == x then 0 else 1 + FirstIndex(s[1..], x)
  }

  /** `Array.from(new Set(s))`: the distinct elements in first-appearance order. */
  function Distinct<T(==)>(s: seq<T>): seq<T> {
    if s == [] then []
    else
      var r := Distinct(s[..|s| - 1]);
      if s[|s| - 1] in r then r else r + [s[|s| - 1]]
  }

  lemma {:induction false} FirstIndexPrefix<T>(s: seq<T>, x: T, n: nat)
    requires n <= |s| && x in s[..n]
    ensures FirstIndex(s, x) == FirstIndex(s[..n], x)
  {
    if s[0] != x {
      assert s[..n][1..] == s[1..][..n - 1];
      FirstIndexPrefix(s[1..], x, n - 1);
    }
  }

  /** The `Set` de-duplication keeps each element once, loses none, invents none,
      and lists them in the order of their first appearance. */
  lemma {:induction false} DistinctSpec<T>(s: seq<T>)
    ensures NoDuplicates(Distinct(s))
    ensures forall x :: x in Distinct(s) ==> x in s
    ensures forall x :: x in s ==> x in Distinct(s)
    ensures forall i, j :: 0 <= i < j < |Distinct(s)| ==>
              FirstIndex(s, Distinct(s)[i]) < FirstIndex(s, Distinct(s)[j])
  {
    if s != [] {
      var init := s[..|s| - 1];
      var last := s[|s| - 1];
      DistinctSpec(init);
      var r := Distinct(init);
      assert s == init + [last];
      forall x | x in r ensures FirstIndex(s, x) == FirstIndex(init, x) {
        FirstIndexPrefix(s, x, |s| - 1);
      }
      if last !in r {
        assert last !in init;
        assert FirstIndex(s, last) == |s| - 1;
        forall i, j | 0 <= i < j < |r + [last]|
          ensures FirstIndex(s, (r + [last])[i]) < FirstIndex(s, (r + [last])[j])
        {
          if j < |r| {
            assert (r + [last])[i] == r[i] && (r + [last])[j] == r[j];
          } else {
            assert (r + [last])[i] == r[i];
            assert FirstIndex(init, r[i]) < |init|;
          }
        }
      }
    }
  }

  // ------------------------------------------------------------------
  // Math.round(part / whole * 100)
  // ------------------------------------------------------------------

  /** `Math.round(part / whole * 100)`, computed exactly; a zero `whole` gives NaN or
      Infinity in the source, which is `None` here. */
  function RoundedPercent(part: int, whole: int): (r: Option<int>)
    requires whole >= 0
    ensures r.Some? <==> whole > 0
    ensures r.Some? ==> 2 * whole * r.value - whole <= 200 * part < 2 * whole * r.value + whole
  {
    if whole == 0 then None
    else
      var q := (200 * part + whole) / (2 * whole);
      assert 2 * whole * q <= 200 * part + whole < 2 * whole * q + 2 * whole;
      Some(q)
  }

  lemma PositiveFactor(w: int, k: int)
    requires w > 0 && w * k <= 0
    ensures k <= 0
  {
  }

  /** A share of a whole rounds to a percentage between 0 and 100. */
  lemma RoundedPercentBounds(part: int, whole: int)
    requires 0 <= part <= whole && whole > 0
    ensures 0 <= RoundedPercent(part, whole).value <= 100
  {
    var q := RoundedPercent(part, whole).value;
    assert whole * (2 * q - 201) == 2 * whole * q - 201 * whole;
    PositiveFactor(whole, 2 * q - 201);
    assert whole * (-1 - 2 * q) == -whole - 2 * whole * q;
    PositiveFactor(whole, -1 - 2 * q);
  }

  /** A larger share of the same whole never rounds to a smaller percentage. */
  lemma RoundedPercentMonotone(p1: int, p2: int, whole: int)
    requires whole > 0 && p1 <= p2
    ensures RoundedPercent(p1, whole).value <= RoundedPercent(p2, whole).value
  {
    var q1 := RoundedPercent(p1, whole).value;
    var q2 := RoundedPercent(p2, whole).value;
    assert 2 * whole * q1 - whole < 2 * whole * q2 + whole;
    assert whole * (q1 - q2 - 1) == whole * q1 - whole * q2 - whole;
    assert 2 * whole * q1 == 2 * (whole * q1) && 2 * whole * q2 == 2 * (whole * q2);
    PositiveFactor(whole, q1 - q2 - 1);
  }
}

=== FILE: leaderboard.dfy ===
/** The student leaderboard (`Leaderboard`): rank icons, rank-change indicators, the
    podium of the first three entries and the points the current user needs to move up
    one place. */
module Standings {
  import opened Common

  datatype Entry = Entry(id: string, name: string, points: int, rank: int, rankChange: int, isCurrentUser: bool)

  /** The demonstration board. */
  const Board := [
    Entry("1", "Alex Chen", 2150, 1, 0, false),
    Entry("2", "Sarah Johnson", 1890, 2, 1, false),
    Entry("3", "You", 1750, 3, -1, true),
    Entry("4", "Mike Rodriguez", 1620, 4, 2, false),
    Entry("5", "Emily Davis", 1580, 5, -1, false),
    Entry("6", "David Kim", 1450, 6, 0, false),
    Entry("7", "Lisa Wang", 1320, 7, 1, false),
    Entry("8", "Tom Wilson", 1280, 8, -2, false)]

  const Gold := "\U{1F947}"
  const Silver := "\U{1F948}"
  const Bronze := "\U{1F949}"

  /** `getRankIcon`: a medal for ranks 1 to 3, `#` and the rank otherwise. */
  function RankIcon(rank: int): (r: string)
    ensures rank == 1 <==> r == Gold
    ensures rank == 2 <==> r == Silver
    ensures rank == 3 <==> r == Bronze
    ensures !(1 <= rank <= 3) ==> r == "#" + IntString(rank)
  {
    if rank == 1 then Gold
    else if rank == 2 then Silver
    else if rank == 3 then Bronze
    else "#" + IntString(rank)
  }

  /** Different ranks never get the same icon. */
  lemma RankIconInjective(a: int, b: int)
    requires RankIcon(a) == RankIcon(b)
    ensures a == b
  {
    if !(1 <= a <= 3) {
      assert RankIcon(a)[1..] == IntString(a) && RankIcon(b)[1..] == IntString(b);
      IntStringInjective(a, b);
    }
  }

  const UpArrow := "↗️"
  const DownArrow := "↘️"
  const FlatArrow := "➡️"

  /** `getRankChangeIcon`: an up arrow and `+n`, a down arrow and `-n`, or a flat arrow
      and `0`. */
  function RankChangeLabel(change: int): string {
    if change > 0 then UpArrow + " +" + IntString(change)
    else if change < 0 then DownArrow + " " + IntString(change)
    else FlatArrow + " 0"
  }

  /** The label shows the direction by its arrow and the exact change in its digits, so
      two changes with the same label are equal. */
  lemma RankChangeLabelInjective(a: int, b: int)
    requires RankChangeLabel(a) == RankChangeLabel(b)
    ensures a == b
    ensures RankChangeLabel(a)[0] == '↗' <==> a > 0
    ensures RankChangeLabel(a)[0] == '↘' <==> a < 0
  {
    var la := RankChangeLabel(a);
    assert a > 0 ==> la[0] == '↗';
    assert a < 0 ==> la[0] == '↘';
    assert a == 0 ==> la[0] == '➡';
    if a > 0 {
      assert la[4..] == IntString(a) && RankChangeLabel(b)[4..] == IntString(b);
      IntStringInjective(a, b);
    } else if a < 0 {
      assert la[3..] == IntString(a) && RankChangeLabel(b)[3..] == IntString(b);
      IntStringInjective(a, b);
    }
  }

  /** `find(entry => entry.isCurrentUser)`, as an index. */
  function CurrentUserIndex(board: seq<Entry>): (r: Option<nat>)
    ensures r.Some? ==> r.value < |board| && board[r.value].isCurrentUser
                        && forall j :: 0 <= j < r.value ==> !board[j].isCurrentUser
    ensures r.None? ==> forall j :: 0 <= j < |board| ==> !board[j].isCurrentUser
  {
    if board == [] then None
    else if board[0].isCurrentUser then Some(0)
    else
      match CurrentUserIndex(board[1..])
      case None => None
      case Some(k) => Some(k + 1)
  }

  /** The points to the next rank: the entry at position `rank - 2` of the board minus the
      user's points, or 0 without a user or at rank 1. A rank past the end of the board
      makes the page fail (`None`). */
  function PointsToNext(board: seq<Entry>): Option<int> {
    var user := CurrentUserIndex(board);
    var userRank := if user.Some? then board[user.value].rank else 0;
    if userRank > 1 then
      if userRank - 2 < |board| then Some(board[userRank - 2].points - board[user.value].points) else None
    else Some(0)
  }

  /** Position `i` holds rank `i + 1`, and points never go up down the board. */
  predicate WellRanked(board: seq<Entry>) {
    && (forall i :: 0 <= i < |board| ==> board[i].rank == i + 1)
    && (forall i, j :: 0 <= i < j < |board| ==> board[i].points >= board[j].points)
  }

  /** On a well-ranked board the figure is the gap to the entry just above the user, is
      never negative, and is 0 for the leader or without a user. */
  lemma PointsToNextOnRankedBoard(board: seq<Entry>)
    requires WellRanked(board)
    ensures PointsToNext(board).Some? && PointsToNext(board).value >= 0
    ensures CurrentUserIndex(board).Some? && CurrentUserIndex(board).value >= 1 ==>
              PointsToNext(board).value
              == board[CurrentUserIndex(board).value - 1].points - board[CurrentUserIndex(board).value].points
    ensures CurrentUserIndex(board).None? || CurrentUserIndex(board).value == 0 ==> PointsToNext(board) == Some(0)
  {
  }

  /** The podium shows the first three entries; on a well-ranked board they carry the
      gold, silver and bronze medals in that order. */
  function Podium(board: seq<Entry>): (r: seq<Entry>)
    ensures |r| == if |board| < 3 then |board| else 3
    ensures forall i :: 0 <= i < |r| ==> r[i] == board[i]
  {
    if |board| < 3 then board else board[..3]
  }

  lemma PodiumMedals(board: seq<Entry>)
    requires WellRanked(board) && |board| >= 3
    ensures RankIcon(Podium(board)[0].rank) == Gold
    ensures RankIcon(Podium(board)[1].rank) == Silver
    ensures RankIcon(Podium(board)[2].rank) == Bronze
  {
  }

  /** The demonstration board: "You" at rank 3 need 140 points to reach rank 2. */
  lemma DemoBoard()
    ensures WellRanked(Board)
    ensures CurrentUserIndex(Board) == Some(2)
    ensures PointsToNext(Board) == Some(140)
  {
  }
}

=== FILE: list_view.dfy ===
/** What the list pages share: a list filtered by several selectors at once, where a
    selector set to "all" lets everything through and a search box matches any of a few
    text fields regardless of case; a menu of the categories present; and the colour
    band of a response time. Each page instantiates these with its own record and fields. */
module ListView {
  import opened Common

  /** A selector over a text field: "all" admits everything, any other value admits only
      itself. */
  predicate Selects(selected: string, value: string) {
    selected == "all" || value == selected
  }

  /** A three-way selector over a yes/no field: 'all', the field set, the field clear
      ('correct'/'incorrect', 'unlocked'/'locked'). */
  datatype FlagFilter = AllItems | OnlyTrue | OnlyFalse

  predicate Admits(f: FlagFilter, flag: bool) {
    match f
    case AllItems => true
    case OnlyTrue => flag
    case OnlyFalse => !flag
  }

  /** The search box: the term occurs, ignoring case, in at least one of the fields. */
  predicate SearchMatches(fields: seq<string>, term: string) {
    exists i :: 0 <= i < |fields| && MatchesIgnoringCase(fields[i], term)
  }

  /** An empty search matches any record with at least one searched field. */
  lemma EmptySearchMatches(fields: seq<string>)
    requires |fields| >= 1
    ensures SearchMatches(fields, "")
  {
    EmptyTermMatches(fields[0]);
  }

  /** A longer search term matches no record the shorter one did not. */
  lemma LongerSearchMatchesLess(fields: seq<string>, term: string, more: string)
    requires SearchMatches(fields, term + more)
    ensures SearchMatches(fields, term)
  {
    var i :| 0 <= i < |fields| && MatchesIgnoringCase(fields[i], term + more);
    LongerTermMatchesLess(fields[i], term, more);
  }

  /** The page's list for a selection `keep`: the records kept, in their original order,
      and exactly those that pass. */
  lemma ShownSpec<T>(items: seq<T>, keep: T -> bool)
    ensures IsSubsequence(Filter(items, keep), items)
    ensures forall x :: x in Filter(items, keep) ==> x in items && keep(x)
    ensures forall x :: x in items && keep(x) ==> x in Filter(items, keep)
  {
    FilterIsSubsequence(items, keep);
    FilterMembers(items, keep);
  }

  /** When every selector is "all" and the search matches everything, the whole list is
      shown. */
  lemma WildcardShowsAll<T>(items: seq<T>, keep: T -> bool)
    requires forall i :: 0 <= i < |items| ==> keep(items[i])
    ensures Filter(items, keep) == items
  {
    FilterKeepsAll(items, keep);
  }

  /** Setting a yes/no selector to "set" and to "clear", all else equal, splits what
      "all" shows: each record lands in exactly one of the two lists. */
  lemma FlagSplits<T>(items: seq<T>, base: T -> bool, flag: T -> bool,
                      onlySet: T -> bool, onlyClear: T -> bool)
    requires forall x :: onlySet(x) == (base(x) && flag(x))
    requires forall x :: onlyClear(x) == (base(x) && !flag(x))
    ensures |Filter(items, onlySet)| + |Filter(items, onlyClear)| == |Filter(items, base)|
    ensures multiset(Filter(items, onlySet)) + multiset(Filter(items, onlyClear))
            == multiset(Filter(items, base))
  {
    var notFlag := x => !flag(x);
    FilterFilter(items, base, flag, onlySet);
    FilterFilter(items, base, notFlag, onlyClear);
    FilterPartition(Filter(items, base), flag, notFlag);
  }

  /** A stricter selection shows a part of what a looser one shows, in the same order. */
  lemma StricterShowsLess<T>(items: seq<T>, strict: T -> bool, loose: T -> bool)
    requires forall x :: strict(x) ==> loose(x)
    ensures IsSubsequence(Filter(items, strict), Filter(items, loose))
    ensures |Filter(items, strict)| <= |Filter(items, loose)|
  {
    FilterMonotone(items, strict, loose);
  }

  /** The category menu: the wildcard followed by the distinct categories. */
  function CategoryMenu(categories: seq<string>): (r: seq<string>)
    ensures |r| >= 1 && r[0] == "all"
  {
    ["all"] + Distinct(categories)
  }

  /** The menu offers every category once, invents none, and follows the order in which
      the categories first appear. */
  lemma CategoryMenuSpec(categories: seq<string>)
    ensures NoDuplicates(CategoryMenu(categories)[1..])
    ensures forall c :: c in categories ==> c in CategoryMenu(categories)[1..]
    ensures forall c :: c in CategoryMenu(categories)[1..] ==> c in categories
    ensures forall i, j :: 1 <= i < j < |CategoryMenu(categories)| ==>
              FirstIndex(categories, CategoryMenu(categories)[i]) < FirstIndex(categories, CategoryMenu(categories)[j])
  {
    DistinctSpec(categories);
    var m := CategoryMenu(categories);
    assert m[1..] == Distinct(categories);
    forall i, j | 1 <= i < j < |m|
      ensures FirstIndex(categories, m[i]) < FirstIndex(categories, m[j])
    {
      assert m[i] == Distinct(categories)[i - 1] && m[j] == Distinct(categories)[j - 1];
    }
  }

  /** The three response-time bands: green, yellow, red. */
  datatype TimeBand = Green | Yellow | Red

  function BandRank(b: TimeBand): nat {
    match b
    case Green => 0
    case Yellow => 1
    case Red => 2
  }

  /** `getResponseTimeColor`: up to 10 s green, up to 20 s yellow, slower red. */
  function ResponseTimeBand(time: int): TimeBand {
    if time <= 10 then Green else if time <= 20 then Yellow else Red
  }

  /** A slower answer never gets a faster colour, and the bands switch exactly at 10 and 20. */
  lemma ResponseTimeBandMonotone(t1: int, t2: int)
    requires t1 <= t2
    ensures BandRank(ResponseTimeBand(t1)) <= BandRank(ResponseTimeBand(t2))
    ensures ResponseTimeBand(t1) == Green <==> t1 <= 10
    ensures ResponseTimeBand(t1) == Red <==> t1 > 20
  {
  }
}

=== FILE: meetings.dfy ===
/** The meeting registry of the server: the `Meeting` record with its schema defaults
    and the four REST handlers (create, end, add participant, get) over a table of
    meetings keyed by `meetingId`. The database is an in-memory map; each handler
    answers with an HTTP status and, on success, the meeting it returns as JSON. */
module Meetings {
  import opened Common

  /** One meeting. Times are milliseconds since the epoch; `endTime` is absent until the
      meeting is ended. */
  datatype Meeting = Meeting(
    meetingId: string,
    hostId: string,
    participants: seq<string>,
    startTime: int,
    endTime: Option<int>,
    isActive: bool)

  /** The two `required: true` string fields: the schema rejects a missing or empty value. */
  predicate HasRequiredFields(meetingId: string, hostId: string) {
    meetingId != "" && hostId != ""
  }

  /** What every stored meeting satisfies: required fields present, no participant listed
      twice, and an end time recorded exactly when the meeting is no longer active. */
  ghost predicate WellFormed(m: Meeting) {
    && HasRequiredFields(m.meetingId, m.hostId)
    && NoDuplicates(m.participants)
    && (m.isActive <==> m.endTime.None?)
  }

  /** `new Meeting({ meetingId, hostId })`: the schema defaults give no participants,
      the current time as start time, no end time, and an active meeting. */
  function NewMeeting(meetingId: string, hostId: string, now: int): (m: Meeting)
    requires HasRequiredFields(meetingId, hostId)
    ensures WellFormed(m)
    ensures m.meetingId == meetingId && m.hostId == hostId && m.startTime == now
    ensures m.participants == [] && m.isActive && m.endTime == None
  {
    Meeting(meetingId, hostId, [], now, None, true)
  }

  /** The record after `isActive = false; endTime = new Date()`. */
  function Ended(m: Meeting, now: int): Meeting {
    m.(isActive := false, endTime := Some(now))
  }

  /** The record after `if (!participants.includes(userId)) participants.push(userId)`. */
  function WithParticipant(m: Meeting, userId: string): Meeting {
    if userId in m.participants then m else m.(participants := m.participants + [userId])
  }

  /** Ending marks the meeting inactive with the given end time and touches nothing else;
      ending it again leaves it inactive. */
  lemma EndedSpec(m: Meeting, now: int, later: int)
    requires WellFormed(m)
    ensures WellFormed(Ended(m, now))
    ensures !Ended(m, now).isActive && Ended(m, now).endTime == Some(now)
    ensures Ended(m, now).meetingId == m.meetingId && Ended(m, now).hostId == m.hostId
    ensures Ended(m, now).participants == m.participants && Ended(m, now).startTime == m.startTime
    ensures !Ended(Ended(m, now), later).isActive
  {
  }

  /** Adding a participant keeps the list free of duplicates, keeps the earlier order as a
      prefix, appends the user at the end only when absent, and changes no other field —
      in particular it does not look at `isActive`. */
  lemma WithParticipantSpec(m: Meeting, userId: string)
    requires WellFormed(m)
    ensures WellFormed(WithParticipant(m, userId))
    ensures userId in WithParticipant(m, userId).participants
    ensures m.participants <= WithParticipant(m, userId).participants
    ensures userId !in m.participants ==>
              WithParticipant(m, userId).participants == m.participants + [userId]
    ensures userId in m.participants ==> WithParticipant(m, userId) == m
    ensures WithParticipant(m, userId).isActive == m.isActive
    ensures WithParticipant(m, userId).endTime == m.endTime
    ensures WithParticipant(m, userId).hostId == m.hostId
  {
    if userId !in m.participants {
      var ps := m.participants + [userId];
      forall i, j | 0 <= i < j < |ps| ensures ps[i] != ps[j] {
        if j == |ps| - 1 {
          assert ps[i] == m.participants[i];
        }
      }
    }
  }

  /** Adding the same participant twice is the same as adding them once. */
  lemma WithParticipantIdempotent(m: Meeting, userId: string)
    ensures WithParticipant(WithParticipant(m, userId), userId) == WithParticipant(m, userId)
  {
  }

  /** An ended meeting still accepts participants and stays ended. */
  lemma EndedMeetingAcceptsParticipants(m: Meeting, now: int, userId: string)
    ensures userId in WithParticipant(Ended(m, now), userId).participants
    ensures !WithParticipant(Ended(m, now), userId).isActive
  {
  }

  /** An HTTP answer: a status code and the meeting sent back, if any. */
  datatype Reply = Reply(status: int, body: Option<Meeting>)

  const Created := 201
  const Ok := 200
  const BadRequest := 400
  const NotFound := 404
  const ServerError := 500

  /** The `Meeting` collection, keyed by `meetingId` (the schema's unique index). */
  class MeetingStore {
    var table: map<string, Meeting>

    ghost predicate Valid()
      reads this
    {
      forall id :: id in table ==> table[id].meetingId == id && WellFormed(table[id])
    }

    constructor ()
      ensures Valid() && table == map[]
    {
      table := map[];
    }

    /** POST /: a known id (active or ended) is refused with 400; a record the schema
        rejects fails on save with 500; otherwise exactly one fresh meeting is added. */
    method Create(meetingId: string, hostId: string, now: int) returns (reply: Reply)
      requires Valid()
      modifies this
      ensures Valid()
      ensures meetingId in old(table) ==> reply == Reply(BadRequest, None) && table == old(table)
      ensures meetingId !in old(table) && !HasRequiredFields(meetingId, hostId) ==>
                reply == Reply(ServerError, None) && table == old(table)
      ensures meetingId !in old(table) && HasRequiredFields(meetingId, hostId) ==>
                && reply == Reply(Created, Some(NewMeeting(meetingId, hostId, now)))
                && table == old(table)[meetingId := NewMeeting(meetingId, hostId, now)]
    {
      if meetingId in table {
        return Reply(BadRequest, None);
      }
      if !HasRequiredFields(meetingId, hostId) {
        return Reply(ServerError, None);
      }
      var m := NewMeeting(meetingId, hostId, now);
      table := table[meetingId := m];
      reply := Reply(Created, Some(m));
    }

    /** PATCH /:meetingId/end: unknown ids give 404; otherwise the meeting is marked
        ended, whoever asks and whether or not it was already ended. */
    method End(meetingId: string, now: int) returns (reply: Reply)
      requires Valid()
      modifies this
      ensures Valid()
      ensures meetingId !in old(table) ==> reply == Reply(NotFound, None) && table == old(table)
      ensures meetingId in old(table) ==>
                && table == old(table)[meetingId := Ended(old(table)[meetingId], now)]
                && reply == Reply(Ok, Some(table[meetingId]))
    {
      if meetingId !in table {
        return Reply(NotFound, None);
      }
      EndedSpec(table[meetingId], now, now);
      var m := Ended(table[meetingId], now);
      table := table[meetingId := m];
      reply := Reply(Ok, Some(m));
    }

    /** PATCH /:meetingId/participants: unknown ids give 404; otherwise the user is added
        once, whether the meeting is active or ended. */
    method AddParticipant(meetingId: string, userId: string) returns (reply: Reply)
      requires Valid()
      modifies this
      ensures Valid()
      ensures meetingId !in old(table) ==> reply == Reply(NotFound, None) && table == old(table)
      ensures meetingId in old(table) ==>
                && table == old(table)[meetingId := WithParticipant(old(table)[meetingId], userId)]
                && reply == Reply(Ok, Some(table[meetingId]))
    {
      if meetingId !in table {
        return Reply(NotFound, None);
      }
      WithParticipantSpec(table[meetingId], userId);
      var m := WithParticipant(table[meetingId], userId);
      table := table[meetingId := m];
      reply := Reply(Ok, Some(m));
    }

    /** GET /:meetingId: the stored meeting unchanged, or 404. */
    method Get(meetingId: string) returns (reply: Reply)
      requires Valid()
      ensures meetingId in table <==> reply.status == Ok
      ensures meetingId !in table ==> reply == Reply(NotFound, None)
      ensures meetingId in table ==> reply.body == Some(table[meetingId])
      ensures reply.body.Some? ==> reply.body.value.meetingId == meetingId && WellFormed(reply.body.value)
    {
      if meetingId !in table {
        return Reply(NotFound, None);
      }
      reply := Reply(Ok, Some(table[meetingId]));
    }
  }

  /** A run of the handlers: a meeting created, joined twice by the same user, ended,
      then joined by another user, lists each user once and stays ended. */
  method Scenario() returns (final: Reply)
    ensures final.status == Ok && final.body.Some?
    ensures final.body.value.participants == ["alice", "bob"]
    ensures !final.body.value.isActive && final.body.value.endTime == Some(20)
  {
    var store := new MeetingStore();
    var r := store.Create("ABC123", "host-1", 10);
    r := store.Create("ABC123", "host-2", 11);
    assert r.status == BadRequest;
    r := store.AddParticipant("ABC123", "alice");
    r := store.AddParticipant("ABC123", "alice");
    r := store.End("ABC123", 20);
    r := store.AddParticipant("ABC123", "bob");
    final := store.Get("ABC123");
  }
}

=== FILE: participants_view.dfy ===
/** The host's participant list (`ParticipantsView`): filtered by a search over name and
    e-mail and by connection status, and the four count tiles. */
module Roster {
  import opened Common
  import opened ListView

  datatype Status = Online | Away | Offline

  datatype Participant = Participant(id: string, name: string, email: string, status: Status)

  /** The demonstration participants. */
  const Participants := [
    Participant("1", "Sarah Johnson", "sarah.j@company.com", Online),
    Participant("2", "Mike Chen", "mike.c@company.com", Online),
    Participant("3", "Emily Davis", "emily.d@company.com", Away),
    Participant("4", "Alex Rodriguez", "alex.r@company.com", Online),
    Participant("5", "Lisa Wang", "lisa.w@company.com", Offline)]

  /** The status selector: "all" or one status. */
  datatype StatusFilter = AnyStatus | Only(wanted: Status)

  datatype Query = Query(search: string, status: StatusFilter)

  const ShowEverything := Query("", AnyStatus)

  predicate Keep(q: Query, p: Participant) {
    && SearchMatches([p.name, p.email], q.search)
    && (q.status.AnyStatus? || p.status == q.status.wanted)
  }

  function KeepFor(q: Query): Participant -> bool {
    p => Keep(q, p)
  }

  /** `filteredParticipants`. */
  function Shown(items: seq<Participant>, q: Query): seq<Participant> {
    Filter(items, KeepFor(q))
  }

  /** The list shown keeps the original order and holds exactly the participants that pass
      the search and the status selector. */
  lemma ShownSpec(items: seq<Participant>, q: Query)
    ensures IsSubsequence(Shown(items, q), items)
    ensures forall p :: p in Shown(items, q) ==> p in items && Keep(q, p)
    ensures forall p :: p in items && Keep(q, p) ==> p in Shown(items, q)
  {
    ListView.ShownSpec(items, KeepFor(q));
  }

  /** An empty search with every status shows every participant. */
  lemma ShowEverythingShowsAll(items: seq<Participant>)
    ensures Shown(items, ShowEverything) == items
  {
    forall i | 0 <= i < |items| ensures Keep(ShowEverything, items[i]) {
      EmptySearchMatches([items[i].name, items[i].email]);
    }
    WildcardShowsAll(items, KeepFor(ShowEverything));
  }

  /** Typing more into the search box only ever removes participants from the list. */
  lemma SearchNarrows(items: seq<Participant>, q: Query, more: string)
    ensures IsSubsequence(Shown(items, q.(search := q.search + more)), Shown(items, q))
  {
    forall p | Keep(q.(search := q.search + more), p) ensures Keep(q, p) {
      LongerSearchMatchesLess([p.name, p.email], q.search, more);
    }
    StricterShowsLess(items, KeepFor(q.(search := q.search + more)), KeepFor(q));
  }

  function HasStatus(s: Status): Participant -> bool {
    (p: Participant) => p.status == s
  }

  /** With an empty search, a single status shows exactly the participants with that
      status, in order: the list the matching count tile counts. */
  lemma OnlyStatusShowsThatStatus(items: seq<Participant>, s: Status)
    ensures Shown(items, Query("", Only(s))) == Filter(items, HasStatus(s))
  {
    forall i | 0 <= i < |items| ensures KeepFor(Query("", Only(s)))(items[i]) == HasStatus(s)(items[i]) {
      EmptySearchMatches([items[i].name, items[i].email]);
    }
    FilterCongruent(items, KeepFor(Query("", Only(s))), HasStatus(s));
  }

  /** The count tile of one status. */
  function StatusCount(items: seq<Participant>, s: Status): nat {
    |Filter(items, HasStatus(s))|
  }

  /** The online, away and offline tiles add up to the total tile. */
  lemma {:induction false} StatusCountsAddUp(items: seq<Participant>)
    ensures StatusCount(items, Online) + StatusCount(items, Away) + StatusCount(items, Offline) == |items|
  {
    if items != [] {
      StatusCountsAddUp(items[1..]);
    }
  }

  /** The demonstration: 5 participants, 3 online, 1 away, 1 offline; searching "" among
      the away ones shows Emily Davis alone. */
  lemma DemoCounts()
    ensures |Participants| == 5
    ensures StatusCount(Participants, Online) == 3
    ensures StatusCount(Participants, Away) == 1
    ensures StatusCount(Participants, Offline) == 1
    ensures Shown(Participants, Query("", Only(Away))) == [Participants[2]]
  {
    var p := Participants;
    assert Filter(p[4..], HasStatus(Online)) == [];
    assert Filter(p[3..], HasStatus(Online)) == [p[3]];
    assert Filter(p[2..], HasStatus(Online)) == [p[3]];
    assert Filter(p[1..], HasStatus(Online)) == [p[1], p[3]];
    assert Filter(p[4..], HasStatus(Away)) == [];
    assert Filter(p[3..], HasStatus(Away)) == [];
    assert Filter(p[2..], HasStatus(Away)) == [p[2]];
    assert Filter(p[1..], HasStatus(Away)) == [p[2]];
    StatusCountsAddUp(p);
    OnlyStatusShowsThatStatus(p, Away);
  }
}

=== FILE: performance_dashboard.dfy ===
/** The host's performance table (`PerformanceDashboard`): participants ranked by correct
    answers, ties broken by the faster average response, with medals for the first three
    and each participant's accuracy. */
module Dashboard {
  import opened Common

  /** One participant's results; the average response time is in tenths of a second. */
  datatype Stats = Stats(id: string, name: string, correctAnswers: int, totalAnswers: nat, avgTenths: int)

  /** The demonstration data. */
  const Participants := [
    Stats("1", "John Doe", 8, 10, 42),
    Stats("2", "Jane Smith", 9, 10, 38),
    Stats("3", "Bob Johnson", 7, 10, 51),
    Stats("4", "Alice Williams", 10, 10, 45)]

  /** The comparator says `a` goes strictly before `b`: more correct answers, or as many
      and a faster average. */
  predicate Before(a: Stats, b: Stats) {
    a.correctAnswers > b.correctAnswers
    || (a.correctAnswers == b.correctAnswers && a.avgTenths < b.avgTenths)
  }

  /** The comparator sees no difference between the two. */
  predicate SameKey(a: Stats, b: Stats) {
    a.correctAnswers == b.correctAnswers && a.avgTenths == b.avgTenths
  }

  /** No participant is followed by one that should go before it. */
  predicate Ranked(s: seq<Stats>) {
    forall i, j :: 0 <= i < j < |s| ==> !Before(s[j], s[i])
  }

  /** Places `x` before the first entry that does not strictly beat it. */
  function Insert(x: Stats, s: seq<Stats>): seq<Stats> {
    if s == [] || !Before(s[0], x) then [x] + s else [s[0]] + Insert(x, s[1..])
  }

  /** The stable sort of a copy of the list with the dashboard's comparator. */
  function Rank(s: seq<Stats>): seq<Stats> {
    if s == [] then [] else Insert(s[0], Rank(s[1..]))
  }

  lemma {:induction false} InsertKeeps(x: Stats, s: seq<Stats>)
    ensures multiset(Insert(x, s)) == multiset(s) + multiset{x}
    ensures |Insert(x, s)| == |s| + 1
  {
    if s != [] && Before(s[0], x) {
      InsertKeeps(x, s[1..]);
      assert s == [s[0]] + s[1..];
    }
  }

  lemma {:induction false} InsertRanked(x: Stats, s: seq<Stats>)
    requires Ranked(s)
    ensures Ranked(Insert(x, s))
  {
    if s != [] && Before(s[0], x) {
      InsertRanked(x, s[1..]);
      InsertKeeps(x, s[1..]);
      var t := Insert(x, s[1..]);
      forall k | 0 <= k < |t| ensures !Before(t[k], s[0]) {
        assert t[k] in multiset(s[1..]) + multiset{x};
        if t[k] != x {
          assert t[k] in s[1..];
          var m :| 0 <= m < |s[1..]| && s[1..][m] == t[k];
          assert s[m + 1] == t[k];
        }
      }
      var r := [s[0]] + t;
      forall i, j | 0 <= i < j < |r| ensures !Before(r[j], r[i]) {
        if i == 0 {
          assert r[j] == t[j - 1];
        } else {
          assert r[i] == t[i - 1] && r[j] == t[j - 1];
        }
      }
    }
  }

  /** The ranking lists the same participants, each as often as before. */
  lemma {:induction false} RankIsPermutation(s: seq<Stats>)
    ensures multiset(Rank(s)) == multiset(s)
    ensures |Rank(s)| == |s|
  {
    if s != [] {
      RankIsPermutation(s[1..]);
      InsertKeeps(s[0], Rank(s[1..]));
      assert s == [s[0]] + s[1..];
    }
  }

  /** The ranking is ordered: correct answers never go up down the table, and among equal
      scores the average time never goes down. */
  lemma {:induction false} RankIsRanked(s: seq<Stats>)
    ensures Ranked(Rank(s))
    ensures forall i, j :: 0 <= i < j < |Rank(s)| ==>
              Rank(s)[i].correctAnswers >= Rank(s)[j].correctAnswers
    ensures forall i, j :: 0 <= i < j < |Rank(s)| && Rank(s)[i].correctAnswers == Rank(s)[j].correctAnswers ==>
              Rank(s)[i].avgTenths <= Rank(s)[j].avgTenths
  {
    if s != [] {
      RankIsRanked(s[1..]);
      InsertRanked(s[0], Rank(s[1..]));
    }
  }

  /** Selects the participants the comparator cannot tell apart from `k`. */
  function Ties(k: Stats): Stats -> bool {
    y => SameKey(y, k)
  }

  lemma {:induction false} InsertTies(x: Stats, s: seq<Stats>, k: Stats)
    ensures SameKey(x, k) ==> Filter(Insert(x, s), Ties(k)) == [x] + Filter(s, Ties(k))
    ensures !SameKey(x, k) ==> Filter(Insert(x, s), Ties(k)) == Filter(s, Ties(k))
  {
    var eq := Ties(k);
    if s != [] && Before(s[0], x) {
      InsertTies(x, s[1..], k);
      var t := Insert(x, s);
      assert t[0] == s[0] && t[1..] == Insert(x, s[1..]);
      assert Filter(t, eq) == (if eq(s[0]) then [s[0]] else []) + Filter(Insert(x, s[1..]), eq);
      assert Filter(s, eq) == (if eq(s[0]) then [s[0]] else []) + Filter(s[1..], eq);
      if SameKey(x, k) {
        assert !eq(s[0]);
      }
    } else {
      var t := Insert(x, s);
      assert t[0] == x && t[1..] == s;
      assert Filter(t, eq) == (if eq(x) then [x] else []) + Filter(s, eq);
    }
  }

  /** The sort is stable: participants the comparator cannot tell apart stay in the order
      of the original list. */
  lemma {:induction false} RankIsStable(s: seq<Stats>, k: Stats)
    ensures Filter(Rank(s), Ties(k)) == Filter(s, Ties(k))
  {
    if s != [] {
      RankIsStable(s[1..], k);
      InsertTies(s[0], Rank(s[1..]), k);
      assert Filter(s, Ties(k)) == (if Ties(k)(s[0]) then [s[0]] else []) + Filter(s[1..], Ties(k));
    }
  }

  /** The demonstration data ranks Alice, Jane, John, Bob. */
  lemma DemoRanking()
    ensures Rank(Participants) == [Participants[3], Participants[1], Participants[0], Participants[2]]
  {
    var p := Participants;
    assert Rank(p[3..]) == [p[3]];
    assert Rank(p[2..]) == Insert(p[2], [p[3]]) == [p[3], p[2]];
    assert Rank(p[1..]) == Insert(p[1], [p[3], p[2]]) == [p[3], p[1], p[2]];
  }

  const Gold := "\U{1F947}"
  const Silver := "\U{1F948}"
  const Bronze := "\U{1F949}"

  /** The rank cell of the row at `index`: medals for the first three rows, then the
      1-based position. */
  function RankCell(index: nat): (r: string)
    ensures index == 0 <==> r == Gold
    ensures index == 1 <==> r == Silver
    ensures index == 2 <==> r == Bronze
    ensures index > 2 ==> (forall i :: 0 <= i < |r| ==> IsDigit(r[i])) && DigitsValue(r) == index + 1
  {
    DecimalValue(index + 1);
    if index == 0 then Gold
    else if index == 1 then Silver
    else if index == 2 then Bronze
    else Decimal(index + 1)
  }

  /** The accuracy cell: the rounded percentage, or what the division by zero prints. */
  function AccuracyCell(s: Stats): (r: string)
    ensures s.totalAnswers == 0 && s.correctAnswers == 0 ==> r == "NaN%"
    ensures s.totalAnswers == 0 && s.correctAnswers > 0 ==> r == "Infinity%"
    ensures s.totalAnswers == 0 && s.correctAnswers < 0 ==> r == "-Infinity%"
    ensures s.totalAnswers > 0 ==> r == IntString(RoundedPercent(s.correctAnswers, s.totalAnswers).value) + "%"
  {
    match RoundedPercent(s.correctAnswers, s.totalAnswers)
    case Some(p) => IntString(p) + "%"
    case None =>
      if s.correctAnswers == 0 then "NaN%"
      else if s.correctAnswers > 0 then "Infinity%"
      else "-Infinity%"
  }

  /** A participant with no more correct answers than answers shows at most 100% and at
      least 0%, and a higher score over the same total never shows a lower accuracy. */
  lemma AccuracyBounds(a: Stats, b: Stats)
    requires 0 <= a.correctAnswers <= a.totalAnswers && a.totalAnswers > 0
    requires b.totalAnswers == a.totalAnswers && a.correctAnswers <= b.correctAnswers
    ensures 0 <= RoundedPercent(a.correctAnswers, a.totalAnswers).value <= 100
    ensures RoundedPercent(a.correctAnswers, a.totalAnswers).value
            <= RoundedPercent(b.correctAnswers, b.totalAnswers).value
  {
    RoundedPercentBounds(a.correctAnswers, a.totalAnswers);
    RoundedPercentMonotone(a.correctAnswers, b.correctAnswers, a.totalAnswers);
  }

  /** The demonstration rows read 100%, 90%, 80% and 70% in ranked order. */
  lemma DemoAccuracy()
    ensures AccuracyCell(Participants[3]) == "100%"
    ensures AccuracyCell(Participants[1]) == "90%"
    ensures AccuracyCell(Participants[0]) == "80%"
    ensures AccuracyCell(Participants[2]) == "70%"
  {
    assert Decimal(100) == "100";
    assert Decimal(90) == "90";
    assert Decimal(80) == "80";
    assert Decimal(70) == "70";
  }
}

=== FILE: poll_history.dfy ===
/** The student's answer history (`PollHistory`): the list filtered by category, by
    right or wrong, and by a search over question and session name; the category menu;
    and the summary totals. */
module History {
  import opened Common
  import opened ListView

  /** One answered poll; the response time is in whole seconds. */
  datatype Item = Item(
    id: string,
    question: string,
    isCorrect: bool,
    responseTime: int,
    points: int,
    category: string,
    sessionName: string)

  /** The demonstration history. */
  const PollHistory := [
    Item("1", "What is the primary benefit of using TypeScript with React?", true, 12, 50, "Programming", "React Fundamentals"),
    Item("2", "Which of the following is NOT a JavaScript primitive type?", true, 8, 45, "Programming", "React Fundamentals"),
    Item("3", "What is the formula for calculating compound interest?", true, 18, 60, "Mathematics", "Financial Mathematics"),
    Item("4", "Who wrote \"To Kill a Mockingbird\"?", true, 6, 40, "Literature", "American Literature"),
    Item("5", "What is the capital of Australia?", false, 5, 0, "Geography", "World Geography"),
    Item("6", "Which planet is known as the Red Planet?", true, 4, 35, "Science", "Solar System Basics")]

  /** The three selectors of the page. */
  datatype Query = Query(category: string, result: FlagFilter, search: string)

  const ShowEverything := Query("all", AllItems, "")

  predicate Keep(q: Query, p: Item) {
    && Selects(q.category, p.category)
    && Admits(q.result, p.isCorrect)
    && SearchMatches([p.question, p.sessionName], q.search)
  }

  function KeepFor(q: Query): Item -> bool {
    p => Keep(q, p)
  }

  /** `filteredHistory`. */
  function Shown(items: seq<Item>, q: Query): seq<Item> {
    Filter(items, KeepFor(q))
  }

  /** The list shown keeps the history's order and holds exactly the polls that pass all
      three selectors. */
  lemma ShownSpec(items: seq<Item>, q: Query)
    ensures IsSubsequence(Shown(items, q), items)
    ensures forall p :: p in Shown(items, q) ==> p in items && Keep(q, p)
    ensures forall p :: p in items && Keep(q, p) ==> p in Shown(items, q)
  {
    ListView.ShownSpec(items, KeepFor(q));
  }

  /** With every selector at "all" and an empty search the whole history is shown. */
  lemma ShowEverythingShowsAll(items: seq<Item>)
    ensures Shown(items, ShowEverything) == items
  {
    forall i | 0 <= i < |items| ensures Keep(ShowEverything, items[i]) {
      EmptySearchMatches([items[i].question, items[i].sessionName]);
    }
    WildcardShowsAll(items, KeepFor(ShowEverything));
  }

  /** "Correct only" and "incorrect only" split what "all results" shows, for any category
      and search. */
  lemma ResultSplit(items: seq<Item>, category: string, search: string)
    ensures |Shown(items, Query(category, OnlyTrue, search))| + |Shown(items, Query(category, OnlyFalse, search))|
            == |Shown(items, Query(category, AllItems, search))|
    ensures multiset(Shown(items, Query(category, OnlyTrue, search)))
            + multiset(Shown(items, Query(category, OnlyFalse, search)))
            == multiset(Shown(items, Query(category, AllItems, search)))
  {
    FlagSplits(items, KeepFor(Query(category, AllItems, search)), (p: Item) => p.isCorrect,
               KeepFor(Query(category, OnlyTrue, search)), KeepFor(Query(category, OnlyFalse, search)));
  }

  /** Typing more into the search box only ever removes polls from the list. */
  lemma SearchNarrows(items: seq<Item>, q: Query, more: string)
    ensures IsSubsequence(Shown(items, q.(search := q.search + more)), Shown(items, q))
  {
    forall p | Keep(q.(search := q.search + more), p) ensures Keep(q, p) {
      LongerSearchMatchesLess([p.question, p.sessionName], q.search, more);
    }
    StricterShowsLess(items, KeepFor(q.(search := q.search + more)), KeepFor(q));
  }

  /** `categories`: "all" and then each category of the history once. */
  function Categories(items: seq<Item>): seq<string> {
    CategoryMenu(seq(|items|, i requires 0 <= i < |items| => items[i].category))
  }

  /** Every poll's category is offered, and nothing but categories of polls besides
      "all". */
  lemma CategoriesSpec(items: seq<Item>)
    ensures Categories(items)[0] == "all"
    ensures forall i :: 0 <= i < |items| ==> items[i].category in Categories(items)[1..]
    ensures forall c :: c in Categories(items)[1..] ==> exists i :: 0 <= i < |items| && items[i].category == c
    ensures NoDuplicates(Categories(items)[1..])
  {
    var cats := seq(|items|, i requires 0 <= i < |items| => items[i].category);
    CategoryMenuSpec(cats);
    forall i | 0 <= i < |items| ensures items[i].category in Categories(items)[1..] {
      assert cats[i] in cats;
    }
    forall c | c in Categories(items)[1..] ensures exists i :: 0 <= i < |items| && items[i].category == c {
      var i :| 0 <= i < |cats| && cats[i] == c;
      assert items[i].category == c;
    }
  }

  /** "Correct Answers": the polls answered correctly. */
  function CorrectCount(items: seq<Item>): nat {
    |Filter(items, (p: Item) => p.isCorrect)|
  }

  /** "Points Earned": the points of every poll. */
  function TotalPoints(items: seq<Item>): int {
    Sum(items, (p: Item) => p.points)
  }

  /** The correct answers never outnumber the polls, the rest are the wrong ones, and with
      no negative points the points of correct answers are part of the total. */
  lemma SummarySpec(items: seq<Item>)
    ensures CorrectCount(items) <= |items|
    ensures CorrectCount(items) + |Filter(items, (p: Item) => !p.isCorrect)| == |items|
    ensures (forall i :: 0 <= i < |items| ==> items[i].points >= 0) ==>
              0 <= Sum(Filter(items, (p: Item) => p.isCorrect), (p: Item) => p.points) <= TotalPoints(items)
  {
    FilterPartition(items, (p: Item) => p.isCorrect, (p: Item) => !p.isCorrect);
    if forall i :: 0 <= i < |items| ==> items[i].points >= 0 {
      SumFilterBound(items, (p: Item) => p.isCorrect, (p: Item) => p.points);
    }
  }

  /** The demonstration history: 6 polls, 5 of them right, 230 points. */
  lemma DemoSummary()
    ensures |PollHistory| == 6 && CorrectCount(PollHistory) == 5 && TotalPoints(PollHistory) == 230
  {
    var h := PollHistory;
    var ok := (p: Item) => p.isCorrect;
    assert h[5..] == [h[5]] && h[5..][1..] == [];
    assert h[4..] == [h[4]] + h[5..];
    assert h[3..] == [h[3]] + h[4..];
    assert h[2..] == [h[2]] + h[3..];
    assert h[1..] == [h[1]] + h[2..];
    assert h == [h[0]] + h[1..];
    assert Filter(h[5..], ok) == [h[5]];
    assert Filter(h[4..], ok) == [h[5]];
    assert Filter(h[3..], ok) == [h[3], h[5]];
    assert Filter(h[2..], ok) == [h[2], h[3], h[5]];
    assert Filter(h[1..], ok) == [h[1], h[2], h[3], h[5]];
    var pts := (p: Item) => p.points;
    assert Sum(h[5..], pts) == 35;
    assert Sum(h[4..], pts) == 35;
    assert Sum(h[3..], pts) == 75;
    assert Sum(h[2..], pts) == 135;
    assert Sum(h[1..], pts) == 180;
  }

  /** "Incorrect only" shows just the Geography poll. */
  lemma DemoWrongOnly()
    ensures Shown(PollHistory, Query("all", OnlyFalse, "")) == [PollHistory[4]]
  {
    var h := PollHistory;
    var wrong := Query("all", OnlyFalse, "");
    var bad := (p: Item) => !p.isCorrect;
    forall i | 0 <= i < |h| ensures KeepFor(wrong)(h[i]) == bad(h[i]) {
      EmptySearchMatches([h[i].question, h[i].sessionName]);
    }
    FilterCongruent(h, KeepFor(wrong), bad);
    assert Filter(h[5..], bad) == [];
    assert Filter(h[4..], bad) == [h[4]];
    assert Filter(h[3..], bad) == [h[4]];
    assert Filter(h[2..], bad) == [h[4]];
    assert Filter(h[1..], bad) == [h[4]];
  }

  /** Response-time colours of the demonstration: yellow for 12 s and 18 s, green for the rest. */
  lemma DemoBands()
    ensures forall i :: 0 <= i < |PollHistory| ==>
              (ResponseTimeBand(PollHistory[i].responseTime) == Yellow <==> i == 0 || i == 2)
    ensures forall i :: 0 <= i < |PollHistory| ==> ResponseTimeBand(PollHistory[i].responseTime) != Red
  {
  }
}

=== FILE: protected_route.dfy ===
/** The route guard (`ProtectedRoute`): a page is shown only to a signed-in user whose
    role matches the role the route asks for; everyone else is sent to the landing page. */
module RouteGuard {
  import opened Common
  import opened Auth

  datatype Outcome = RedirectHome | RenderChildren

  /** The guard for a route that asks for `required` (no requirement when absent or empty). */
  function Guard(user: Option<User>, required: Option<string>): (r: Outcome) {
    if user.None? then RedirectHome
    else if Truthy(required) && user.value.role != required then RedirectHome
    else RenderChildren
  }

  /** The page is shown exactly when someone is signed in and either the route asks for
      no role or the user holds exactly that role. */
  lemma GuardSpec(user: Option<User>, required: Option<string>)
    ensures Guard(user, required) == RenderChildren <==>
              user.Some? && (!Truthy(required) || user.value.role == required)
  {
  }

  /** Without a signed-in user every route redirects home. */
  lemma SignedOutRedirected(required: Option<string>)
    ensures Guard(None, required) == RedirectHome
  {
  }

  /** A user without a role is admitted only to routes that ask for none. */
  lemma NoRoleOnlyUnrestricted(u: User, required: Option<string>)
    requires u.role.None?
    ensures Guard(Some(u), required) == RenderChildren <==> !Truthy(required)
  {
  }

  /** Somebody who signed up as host reaches the host pages and is turned away from the
      participant pages; somebody who signed up without a role is a participant. */
  lemma SignUpDecidesRoute(email: string, uid: string)
    ensures Guard(Some(SignUpUser(email, uid, Some(HostRole))), Some(HostRole)) == RenderChildren
    ensures Guard(Some(SignUpUser(email, uid, Some(HostRole))), Some(ParticipantRole)) == RedirectHome
    ensures Guard(Some(SignUpUser(email, uid, None)), Some(ParticipantRole)) == RenderChildren
    ensures Guard(Some(SignUpUser(email, uid, None)), Some(HostRole)) == RedirectHome
  {
  }

  /** Signing in takes the stored role, so with no role stored a host sign-in is refused
      the host pages. */
  lemma SignInWithoutStoredRole(email: string, uid: string, storage: map<string, string>)
    requires RoleKey !in storage
    ensures Guard(Some(SignInUser(email, uid, storage)), Some(HostRole)) == RedirectHome
    ensures Guard(Some(SignInUser(email, uid, storage)), Some(ParticipantRole)) == RenderChildren
  {
  }
}

=== FILE: responses_view.dfy ===
/** The host's list of poll responses (`ResponsesView`): filtered by poll, looked up by
    its id among the meeting's polls, and by right or wrong; and the summary tiles. */
module Responses {
  import opened Common
  import opened ListView

  /** A poll of the meeting: its id and its question text. */
  datatype PollRef = PollRef(id: string, question: string)

  /** One participant's answer; a response names its poll by the question text. */
  datatype Response = Response(
    id: string,
    pollQuestion: string,
    participantName: string,
    selectedOption: string,
    isCorrect: bool,
    responseTime: int)

  const Q1 := "What is the primary target audience for our new product?"
  const Q2 := "Which marketing channel should we prioritize?"
  const Q3 := "What is the most important feature for customers?"
  const Q4 := "When should we launch the product?"

  const Polls := [PollRef("poll1", Q1), PollRef("poll2", Q2), PollRef("poll3", Q3), PollRef("poll4", Q4)]

  const DemoResponses := [
    Response("1", Q1, "Sarah Johnson", "Enterprise customers", true, 12),
    Response("2", Q1, "Mike Chen", "Small businesses", false, 8),
    Response("3", Q2, "Emily Davis", "Content marketing", true, 15),
    Response("4", Q2, "Alex Rodriguez", "Social media", false, 20),
    Response("5", Q3, "Lisa Wang", "User-friendly interface", true, 10),
    Response("6", Q4, "David Kim", "Q2 2024", true, 18)]

  /** `polls.find(p => p.id === id)?.question`: the question of the first poll with that
      id, or nothing. */
  function FindQuestion(polls: seq<PollRef>, id: string): (r: Option<string>)
    ensures r.None? <==> forall i :: 0 <= i < |polls| ==> polls[i].id != id
    ensures r.Some? ==> exists i :: 0 <= i < |polls| && polls[i].id == id && polls[i].question == r.value
                                    && forall j :: 0 <= j < i ==> polls[j].id != id
  {
    if polls == [] then None
    else if polls[0].id == id then Some(polls[0].question)
    else
      var r := FindQuestion(polls[1..], id);
      if r.Some? then
        var k :| 0 <= k < |polls[1..]| && polls[1..][k].id == id && polls[1..][k].question == r.value
                 && forall j :: 0 <= j < k ==> polls[1..][j].id != id;
        assert polls[k + 1] == polls[1..][k];
        r
      else r
  }

  /** The two selectors: a poll id or "all", and right/wrong/all. */
  datatype Query = Query(poll: string, correctness: FlagFilter)

  const ShowEverything := Query("all", AllItems)

  /** A response passes when the poll selector is "all" or names a poll whose question is
      the response's; an id with no poll compares `undefined` with a string and never
      passes. */
  predicate Keep(polls: seq<PollRef>, q: Query, r: Response) {
    && (q.poll == "all" || FindQuestion(polls, q.poll) == Some(r.pollQuestion))
    && Admits(q.correctness, r.isCorrect)
  }

  function KeepFor(polls: seq<PollRef>, q: Query): Response -> bool {
    r => Keep(polls, q, r)
  }

  /** `filteredResponses`. */
  function Shown(polls: seq<PollRef>, responses: seq<Response>, q: Query): seq<Response> {
    Filter(responses, KeepFor(polls, q))
  }

  /** The list shown keeps the original order and holds exactly the responses that pass
      both selectors. */
  lemma ShownSpec(polls: seq<PollRef>, responses: seq<Response>, q: Query)
    ensures IsSubsequence(Shown(polls, responses, q), responses)
    ensures forall r :: r in Shown(polls, responses, q) ==> r in responses && Keep(polls, q, r)
    ensures forall r :: r in responses && Keep(polls, q, r) ==> r in Shown(polls, responses, q)
  {
    ListView.ShownSpec(responses, KeepFor(polls, q));
  }

  /** Both selectors at "all" show every response. */
  lemma ShowEverythingShowsAll(polls: seq<PollRef>, responses: seq<Response>)
    ensures Shown(polls, responses, ShowEverything) == responses
  {
    WildcardShowsAll(responses, KeepFor(polls, ShowEverything));
  }

  /** A poll id that is neither "all" nor the id of any poll shows no response at all,
      whatever the correctness selector. */
  lemma UnknownPollShowsNothing(polls: seq<PollRef>, responses: seq<Response>, q: Query)
    requires q.poll != "all"
    requires forall i :: 0 <= i < |polls| ==> polls[i].id != q.poll
    ensures Shown(polls, responses, q) == []
  {
    FilterKeepsNone(responses, KeepFor(polls, q));
  }

  /** A known poll id shows exactly the responses to that poll's question. */
  lemma KnownPollShowsItsResponses(polls: seq<PollRef>, responses: seq<Response>, i: nat, r: Response)
    requires i < |polls| && polls[i].id != "all"
    requires forall j :: 0 <= j < i ==> polls[j].id != polls[i].id
    requires r in responses
    ensures r in Shown(polls, responses, Query(polls[i].id, AllItems)) <==> r.pollQuestion == polls[i].question
  {
    var q := Query(polls[i].id, AllItems);
    ListView.ShownSpec(responses, KeepFor(polls, q));
    var found := FindQuestion(polls, polls[i].id);
    var k :| 0 <= k < |polls| && polls[k].id == polls[i].id && polls[k].question == found.value
             && forall j :: 0 <= j < k ==> polls[j].id != polls[i].id;
    assert k == i;
  }

  /** "Correct" and "incorrect" split what "all" shows, for any poll selection. */
  lemma CorrectnessSplit(polls: seq<PollRef>, responses: seq<Response>, poll: string)
    ensures |Shown(polls, responses, Query(poll, OnlyTrue))| + |Shown(polls, responses, Query(poll, OnlyFalse))|
            == |Shown(polls, responses, Query(poll, AllItems))|
    ensures multiset(Shown(polls, responses, Query(poll, OnlyTrue)))
            + multiset(Shown(polls, responses, Query(poll, OnlyFalse)))
            == multiset(Shown(polls, responses, Query(poll, AllItems)))
  {
    FlagSplits(responses, KeepFor(polls, Query(poll, AllItems)), (r: Response) => r.isCorrect,
               KeepFor(polls, Query(poll, OnlyTrue)), KeepFor(polls, Query(poll, OnlyFalse)));
  }

  /** The "Correct" tile. */
  function CorrectCount(responses: seq<Response>): nat {
    |Filter(responses, (r: Response) => r.isCorrect)|
  }

  /** The "Incorrect" tile is computed as total minus correct. */
  function IncorrectTile(responses: seq<Response>): int {
    |responses| - CorrectCount(responses)
  }

  /** The "Incorrect" tile is never negative and counts exactly the wrong answers. */
  lemma IncorrectTileCountsWrongAnswers(responses: seq<Response>)
    ensures 0 <= IncorrectTile(responses) == |Filter(responses, (r: Response) => !r.isCorrect)|
  {
    FilterPartition(responses, (r: Response) => r.isCorrect, (r: Response) => !r.isCorrect);
  }

  /** The demonstration: 6 responses, 4 right and 2 wrong; poll 2's question is found
      and an unknown poll's is not; no response is slow enough to be red. */
  lemma DemoSummary()
    ensures |DemoResponses| == 6 && CorrectCount(DemoResponses) == 4 && IncorrectTile(DemoResponses) == 2
    ensures FindQuestion(Polls, "poll2") == Some(Q2) && FindQuestion(Polls, "poll9") == None
    ensures forall i :: 0 <= i < |DemoResponses| ==> ResponseTimeBand(DemoResponses[i].responseTime) != Red
  {
    var d := DemoResponses;
    var ok := (r: Response) => r.isCorrect;
    assert Filter(d[5..], ok) == [d[5]];
    assert Filter(d[4..], ok) == [d[4], d[5]];
    assert Filter(d[3..], ok) == [d[4], d[5]];
    assert Filter(d[2..], ok) == [d[2], d[4], d[5]];
    assert Filter(d[1..], ok) == [d[2], d[4], d[5]];
  }
}

=== FILE: socket_context.dfy ===
/** The socket state shared with the pages (`SocketProvider`): whether the socket is
    connected, the meeting the pages believe they are in, and the poll on screen, kept
    beside the single `SocketService` the whole client uses. */
module SessionContext {
  import opened Common
  import opened SocketClient
  import opened Auth

  /** The active poll after poll `endedId` has ended: cleared when it is that poll, kept
      otherwise. */
  function AfterPollEnded(active: Option<Poll>, endedId: string): (r: Option<Poll>)
    ensures r.None? <==> active.None? || active.value.id == endedId
    ensures r.Some? ==> r == active
  {
    if active.Some? && active.value.id == endedId then None else active
  }

  /** The `poll-ended` handler as registered: every registration compares the ended poll
      with the active poll as it was when `connectSocket` ran (`snapshots`, one per
      registration), not with the poll on screen now. */
  function AfterPollEndedAsWritten(snapshots: seq<Option<Poll>>, active: Option<Poll>, endedId: string): (r: Option<Poll>)
    ensures r.None? <==> active.None? || exists i :: 0 <= i < |snapshots| && Names(snapshots[i], endedId)
    ensures r.Some? ==> r == active
  {
    if exists i :: 0 <= i < |snapshots| && Names(snapshots[i], endedId) then None else active
  }

  predicate Names(p: Option<Poll>, id: string) {
    p.Some? && p.value.id == id
  }

  /** Connecting happens before any poll is on screen, so each registration captured no
      poll; when the poll on screen then ends, the handler as written leaves it there. */
  lemma StaleHandlerKeepsEndedPoll(p: Poll, registrations: nat)
    requires registrations >= 1
    ensures AfterPollEndedAsWritten(seq(registrations, _ => None), Some(p), p.id) == Some(p)
    ensures AfterPollEnded(Some(p), p.id) == None
  {
    var snaps: seq<Option<Poll>> := seq(registrations, _ => None);
    assert forall i :: 0 <= i < |snaps| ==> !Names(snaps[i], p.id);
  }

  /** With a registration whose captured poll is older than the one on screen, ending the
      older poll clears the newer one. */
  lemma StaleHandlerClearsOtherPoll(old_: Poll, current: Poll)
    requires old_.id != current.id
    ensures AfterPollEndedAsWritten([Some(old_)], Some(current), old_.id) == None
    ensures AfterPollEnded(Some(current), old_.id) == Some(current)
  {
    assert Names([Some(old_)][0], old_.id);
  }

  /** When every registration saw the poll now on screen, both rules agree. */
  lemma FreshSnapshotsAgree(snapshots: seq<Option<Poll>>, active: Option<Poll>, endedId: string)
    requires |snapshots| >= 1
    requires forall i :: 0 <= i < |snapshots| ==> snapshots[i] == active
    ensures AfterPollEndedAsWritten(snapshots, active, endedId) == AfterPollEnded(active, endedId)
  {
    if active.Some? && active.value.id == endedId {
      assert Names(snapshots[0], endedId);
    }
  }

  class SocketProvider {
    /** The one socket service of the client, shared with every page. */
    const service: SocketService
    var isConnected: bool
    var currentMeetingId: Option<string>
    var activePoll: Option<Poll>

    ghost predicate Valid()
      reads this, service
    {
      service.Valid()
    }

    /** The first render: not connected, no meeting, no poll. */
    constructor (s: SocketService)
      requires s.Valid()
      ensures Valid() && service == s
      ensures !isConnected && currentMeetingId == None && activePoll == None
      ensures unchanged(s)
    {
      service := s;
      isConnected, currentMeetingId, activePoll := false, None, None;
    }

    /** `connectSocket`: opens (or reuses) the socket, marks it connected, and registers
        the connect, disconnect, new-poll and poll-ended handlers once more. */
    method ConnectSocket()
      requires Valid()
      modifies this, service
      ensures Valid()
      ensures isConnected && service.socket.Some?
      ensures service.listeners ==
                (if old(service.socket).Some? then old(service.listeners) else [])
                + [SocketConnected, SocketDisconnected, NewPoll, PollEnded]
      ensures service.log == old(service.log) && service.meetingId == old(service.meetingId)
      ensures currentMeetingId == old(currentMeetingId) && activePoll == old(activePoll)
    {
      var _ := service.Connect();
      isConnected := true;
      service.On(SocketConnected);
      service.On(SocketDisconnected);
      service.On(NewPoll);
      service.On(PollEnded);
    }

    /** `disconnectSocket`: closes the socket and forgets the meeting and the poll here;
        the service itself still remembers the meeting it joined. */
    method DisconnectSocket()
      requires Valid()
      modifies this, service
      ensures Valid()
      ensures !isConnected && currentMeetingId == None && activePoll == None
      ensures service.socket == None && service.listeners == []
      ensures service.log == old(service.log) && service.meetingId == old(service.meetingId)
    {
      service.Disconnect();
      isConnected, currentMeetingId, activePoll := false, None, None;
    }

    /** `joinMeeting`: the page records the meeting even when the service, having no
        socket, did not join it. */
    method JoinMeeting(id: string)
      requires Valid()
      modifies this, service
      ensures Valid()
      ensures currentMeetingId == Some(id)
      ensures old(service.socket).Some? ==>
                service.log == old(service.log) + [Event.JoinMeeting(id)] && service.meetingId == Some(id)
      ensures old(service.socket).None? ==>
                service.log == old(service.log) && service.meetingId == old(service.meetingId)
      ensures service.socket == old(service.socket) && service.listeners == old(service.listeners)
      ensures isConnected == old(isConnected) && activePoll == old(activePoll)
    {
      service.JoinMeeting(id);
      currentMeetingId := Some(id);
    }

    /** `leaveMeeting`: leaves through the service and clears the meeting and the poll. */
    method LeaveMeeting()
      requires Valid()
      modifies this, service
      ensures Valid()
      ensures currentMeetingId == None && activePoll == None
      ensures old(service.InMeeting()) ==>
                service.log == old(service.log) + [Event.LeaveMeeting(old(service.meetingId).value)]
                && service.meetingId == None
      ensures !old(service.InMeeting()) ==>
                service.log == old(service.log) && service.meetingId == old(service.meetingId)
      ensures service.socket == old(service.socket) && service.listeners == old(service.listeners)
      ensures isConnected == old(isConnected)
    {
      service.LeaveMeeting();
      currentMeetingId, activePoll := None, None;
    }

    /** `launchPoll`: passes the poll to the service; the poll on screen changes only
        when the server sends it back as `new-poll`. */
    method LaunchPoll(poll: Poll)
      requires Valid()
      modifies service`log
      ensures Valid()
      ensures old(service.InMeeting()) ==>
                service.log == old(service.log) + [Event.LaunchPoll(service.meetingId.value, poll)]
      ensures !old(service.InMeeting()) ==> service.log == old(service.log)
    {
      service.LaunchPoll(poll);
    }

    /** `endPoll`: tells the service and takes the poll off the screen if it is the one
        that ended. */
    method EndPoll(pollId: string)
      requires Valid()
      modifies this`activePoll, service`log
      ensures Valid()
      ensures activePoll == AfterPollEnded(old(activePoll), pollId)
      ensures old(service.InMeeting()) ==>
                service.log == old(service.log) + [Event.EndPoll(service.meetingId.value, pollId)]
      ensures !old(service.InMeeting()) ==> service.log == old(service.log)
    {
      service.EndPoll(pollId);
      activePoll := AfterPollEnded(activePoll, pollId);
    }

    /** `submitAnswer`: sends the answer in the name of the signed-in user; with nobody
        signed in, nothing is sent. */
    method SubmitAnswer(user: Option<User>, pollId: string, answer: int)
      requires Valid()
      modifies service`log
      ensures Valid()
      ensures user.Some? && old(service.InMeeting()) ==>
                service.log == old(service.log)
                               + [Event.SubmitAnswer(service.meetingId.value, user.value.uid, pollId, answer)]
      ensures user.None? || !old(service.InMeeting()) ==> service.log == old(service.log)
    {
      if user.Some? {
        service.SubmitAnswer(user.value.uid, pollId, answer);
      }
    }

    /** The `connect` handler, when registered on the open socket. */
    method OnSocketConnected()
      requires Valid()
      modifies this`isConnected
      ensures Valid()
      ensures isConnected == (SocketConnected in service.listeners || old(isConnected))
    {
      if SocketConnected in service.listeners {
        isConnected := true;
      }
    }

    /** The `disconnect` handler, when registered on the open socket. */
    method OnSocketDisconnected()
      requires Valid()
      modifies this`isConnected
      ensures Valid()
      ensures isConnected == (SocketDisconnected !in service.listeners && old(isConnected))
    {
      if SocketDisconnected in service.listeners {
        isConnected := false;
      }
    }

    /** The `new-poll` handler: the received poll replaces the one on screen. */
    method OnNewPoll(poll: Poll)
      requires Valid()
      modifies this`activePoll
      ensures Valid()
      ensures NewPoll in service.listeners ==> activePoll == Some(poll)
      ensures NewPoll !in service.listeners ==> activePoll == old(activePoll)
    {
      if NewPoll in service.listeners {
        activePoll := Some(poll);
      }
    }

    /** The `poll-ended` handler, with the comparison made against the poll on screen. */
    method OnPollEnded(pollId: string)
      requires Valid()
      modifies this`activePoll
      ensures Valid()
      ensures PollEnded in service.listeners ==> activePoll == AfterPollEnded(old(activePoll), pollId)
      ensures PollEnded !in service.listeners ==> activePoll == old(activePoll)
    {
      if PollEnded in service.listeners {
        activePoll := AfterPollEnded(activePoll, pollId);
      }
    }

    /** The unmount clean-up: drops every listener and closes the socket. */
    method Unmount()
      requires Valid()
      modifies service
      ensures Valid()
      ensures service.socket == None && service.listeners == []
      ensures service.log == old(service.log) && service.meetingId == old(service.meetingId)
    {
      service.RemoveAllListeners();
      service.Disconnect();
    }
  }

  /** Disconnecting forgets the meeting on the page but not in the service: after
      reconnecting, a launched poll is still sent to the meeting joined before. */
  method ReconnectKeepsServiceMeeting() returns (p: SocketProvider)
    ensures fresh(p) && fresh(p.service) && p.Valid()
    ensures p.currentMeetingId == None
    ensures p.service.log == [Event.JoinMeeting("M1"), Event.LaunchPoll("M1", Poll("p1", "Q?", [], None))]
  {
    var s := new SocketService();
    p := new SocketProvider(s);
    p.ConnectSocket();
    p.JoinMeeting("M1");
    p.DisconnectSocket();
    p.ConnectSocket();
    p.LaunchPoll(Poll("p1", "Q?", [], None));
  }

  /** A poll launched, received and ended from the same page leaves the screen empty. */
  method LaunchReceiveEnd() returns (p: SocketProvider)
    ensures fresh(p) && fresh(p.service) && p.Valid()
    ensures p.activePoll == None && p.isConnected
    ensures p.service.log == [Event.JoinMeeting("M1"), Event.LaunchPoll("M1", Poll("p1", "Q?", [], None)),
                              Event.EndPoll("M1", "p1")]
  {
    var s := new SocketService();
    p := new SocketProvider(s);
    p.ConnectSocket();
    p.JoinMeeting("M1");
    p.LaunchPoll(Poll("p1", "Q?", [], None));
    p.OnNewPoll(Poll("p1", "Q?", [], None));
    assert p.activePoll == Some(Poll("p1", "Q?", [], None));
    p.EndPoll("p1");
  }
}

=== FILE: socket_service.dfy ===
/** The client's socket wrapper (`SocketService`): at most one open socket, the meeting
    the client has joined, and guarded emission of the meeting events. The socket is
    a handle number, every emission is appended to an event log, and listener
    registration is a list of the channels listened to on the current socket. */
module SocketClient {
  import opened Common

  /** The poll payload carried by `launch-poll` and `new-poll`. */
  datatype Poll = Poll(id: string, question: string, options: seq<string>, correctAnswer: Option<int>)

  /** Events the client emits, each tagged with the meeting it concerns. */
  datatype Event =
    | JoinMeeting(meetingId: string)
    | LeaveMeeting(meetingId: string)
    | LaunchPoll(meetingId: string, poll: Poll)
    | EndPoll(meetingId: string, pollId: string)
    | SubmitAnswer(meetingId: string, userId: string, pollId: string, answer: int)

  /** Socket events a listener can be registered for: the connection's own `connect`
      and `disconnect`, and the server's poll events. */
  datatype Channel = SocketConnected | SocketDisconnected | NewPoll | PollAnswer | PollEnded

  class SocketService {
    /** The open socket, if any, as the handle number it was created with. */
    var socket: Option<nat>
    /** Sockets created so far; the next socket gets this handle. */
    var created: nat
    var meetingId: Option<string>
    /** Everything emitted so far, oldest first. */
    var log: seq<Event>
    /** Listeners registered on the current socket. */
    var listeners: seq<Channel>

    ghost predicate Valid()
      reads this
    {
      && (socket.Some? ==> socket.value < created)
      && (socket.None? ==> listeners == [])
    }

    /** Both a socket and a (truthy) meeting id: the guard of every meeting emission. */
    predicate InMeeting()
      reads this
    {
      socket.Some? && Truthy(meetingId)
    }

    constructor ()
      ensures Valid()
      ensures socket == None && meetingId == None && log == [] && listeners == [] && created == 0
    {
      socket, created, meetingId, log, listeners := None, 0, None, [], [];
    }

    /** `connect`: opens a socket only when none is open and returns the open one. */
    method Connect() returns (handle: nat)
      requires Valid()
      modifies this
      ensures Valid()
      ensures socket == Some(handle)
      ensures old(socket).Some? ==> handle == old(socket).value && created == old(created)
                                    && listeners == old(listeners)
      ensures old(socket).None? ==> handle == old(created) && created == old(created) + 1
                                    && listeners == []
      ensures meetingId == old(meetingId) && log == old(log)
    {
      if socket.None? {
        socket := Some(created);
        created := created + 1;
      }
      handle := socket.value;
    }

    /** `disconnect`: closes the socket if there is one; the meeting id is kept. */
    method Disconnect()
      requires Valid()
      modifies this
      ensures Valid()
      ensures socket == None && listeners == []
      ensures meetingId == old(meetingId) && log == old(log) && created == old(created)
    {
      if socket.Some? {
        socket := None;
        listeners := [];
      }
    }

    /** `joinMeeting`: with a socket, emits `join-meeting` and records the id, without
        leaving a previously joined meeting; without one, does nothing. */
    method JoinMeeting(id: string)
      requires Valid()
      modifies this
      ensures Valid()
      ensures old(socket).Some? ==> log == old(log) + [Event.JoinMeeting(id)] && meetingId == Some(id)
      ensures old(socket).None? ==> log == old(log) && meetingId == old(meetingId)
      ensures socket == old(socket) && created == old(created) && listeners == old(listeners)
    {
      if socket.Some? {
        log := log + [Event.JoinMeeting(id)];
        meetingId := Some(id);
      }
    }

    /** `leaveMeeting`: only inside a meeting, emits `leave-meeting` for it and forgets it. */
    method LeaveMeeting()
      requires Valid()
      modifies this
      ensures Valid()
      ensures old(InMeeting()) ==> log == old(log) + [Event.LeaveMeeting(old(meetingId).value)]
                                   && meetingId == None
      ensures !old(InMeeting()) ==> log == old(log) && meetingId == old(meetingId)
      ensures socket == old(socket) && created == old(created) && listeners == old(listeners)
    {
      if InMeeting() {
        log := log + [Event.LeaveMeeting(meetingId.value)];
        meetingId := None;
      }
    }

    /** `launchPoll`: one `launch-poll` event for the current meeting, inside a meeting only. */
    method LaunchPoll(poll: Poll)
      requires Valid()
      modifies this`log
      ensures old(InMeeting()) ==> log == old(log) + [Event.LaunchPoll(meetingId.value, poll)]
      ensures !old(InMeeting()) ==> log == old(log)
    {
      if InMeeting() {
        log := log + [Event.LaunchPoll(meetingId.value, poll)];
      }
    }

    /** `endPoll`: one `end-poll` event for the current meeting, inside a meeting only. */
    method EndPoll(pollId: string)
      requires Valid()
      modifies this`log
      ensures old(InMeeting()) ==> log == old(log) + [Event.EndPoll(meetingId.value, pollId)]
      ensures !old(InMeeting()) ==> log == old(log)
    {
      if InMeeting() {
        log := log + [Event.EndPoll(meetingId.value, pollId)];
      }
    }

    /** `submitAnswer`: one `submit-answer` event for the current meeting, inside a meeting only. */
    method SubmitAnswer(userId: string, pollId: string, answer: int)
      requires Valid()
      modifies this`log
      ensures old(InMeeting()) ==>
                log == old(log) + [Event.SubmitAnswer(meetingId.value, userId, pollId, answer)]
      ensures !old(InMeeting()) ==> log == old(log)
    {
      if InMeeting() {
        log := log + [Event.SubmitAnswer(meetingId.value, userId, pollId, answer)];
      }
    }

    /** `onNewPoll`, `onPollAnswer`, `onPollEnded`: register on the open socket, if any. */
    method On(channel: Channel)
      requires Valid()
      modifies this`listeners
      ensures Valid()
      ensures socket.Some? ==> listeners == old(listeners) + [channel]
      ensures socket.None? ==> listeners == old(listeners)
    {
      if socket.Some? {
        listeners := listeners + [channel];
      }
    }

    /** `removeAllListeners`: drops the listeners of the open socket, if any. */
    method RemoveAllListeners()
      requires Valid()
      modifies this`listeners
      ensures Valid()
      ensures listeners == []
    {
      if socket.Some? {
        listeners := [];
      }
    }
  }

  /** A client that joins a meeting before connecting emits nothing and records nothing;
      once connected, joining, launching and leaving emit exactly three events, all
      tagged with that meeting. */
  method JoinBeforeConnect() returns (s: SocketService)
    ensures fresh(s) && s.Valid()
    ensures s.log == [Event.JoinMeeting("M1"), Event.LaunchPoll("M1", Poll("p1", "Q?", ["a", "b"], Some(1))),
                      Event.LeaveMeeting("M1")]
    ensures s.meetingId == None && s.socket == Some(0)
  {
    s := new SocketService();
    s.JoinMeeting("M0");
    assert s.log == [] && s.meetingId == None;
    var h := s.Connect();
    var h2 := s.Connect();
    assert h == h2;
    s.JoinMeeting("M1");
    s.LaunchPoll(Poll("p1", "Q?", ["a", "b"], Some(1)));
    s.LeaveMeeting();
    s.LeaveMeeting();
  }
}

=== FILE: study_materials.dfy ===
/** The student's study materials page (`StudyMaterials`): the list filtered by category,
    by type and by a search over title and description; the category menu; the completed
    count; the star rating; and the labels of each material's buttons. */
module Materials {
  import opened Common
  import opened ListView

  /** One material; `kind` is its `type` ("video", "document", "quiz", "interactive"). */
  datatype Material = Material(
    id: string,
    title: string,
    description: string,
    kind: string,
    category: string,
    isCompleted: bool,
    progress: int,
    rating: real)

  /** The demonstration materials. */
  const StudyMaterials := [
    Material("1", "Introduction to React Hooks",
             "Learn the fundamentals of React Hooks including useState, useEffect, and custom hooks.",
             "video", "Programming", true, 100, 4.8),
    Material("2", "TypeScript Best Practices",
             "Comprehensive guide to writing clean and maintainable TypeScript code.",
             "document", "Programming", false, 65, 4.9),
    Material("3", "Calculus Practice Quiz",
             "Test your understanding of derivatives and integrals with this interactive quiz.",
             "quiz", "Mathematics", false, 0, 4.6),
    Material("4", "Interactive Chemistry Lab",
             "Virtual chemistry experiments to understand molecular structures and reactions.",
             "interactive", "Science", false, 25, 4.7),
    Material("5", "World War II Timeline",
             "Interactive timeline covering major events of World War II.",
             "interactive", "History", true, 100, 4.5),
    Material("6", "Advanced JavaScript Concepts",
             "Deep dive into closures, prototypes, and asynchronous programming.",
             "video", "Programming", false, 40, 4.9)]

  /** The fixed type menu. */
  const Types := ["all", "video", "document", "quiz", "interactive"]

  /** The three selectors: category, type, search term. */
  datatype Query = Query(category: string, kind: string, search: string)

  const ShowEverything := Query("all", "all", "")

  predicate Keep(q: Query, m: Material) {
    && Selects(q.category, m.category)
    && Selects(q.kind, m.kind)
    && SearchMatches([m.title, m.description], q.search)
  }

  function KeepFor(q: Query): Material -> bool {
    m => Keep(q, m)
  }

  /** `filteredMaterials`. */
  function Shown(items: seq<Material>, q: Query): seq<Material> {
    Filter(items, KeepFor(q))
  }

  /** The list shown keeps the original order and holds exactly the materials that pass
      all three selectors. */
  lemma ShownSpec(items: seq<Material>, q: Query)
    ensures IsSubsequence(Shown(items, q), items)
    ensures forall m :: m in Shown(items, q) ==> m in items && Keep(q, m)
    ensures forall m :: m in items && Keep(q, m) ==> m in Shown(items, q)
  {
    ListView.ShownSpec(items, KeepFor(q));
  }

  /** "all", "all" and an empty search show every material. */
  lemma ShowEverythingShowsAll(items: seq<Material>)
    ensures Shown(items, ShowEverything) == items
  {
    forall i | 0 <= i < |items| ensures Keep(ShowEverything, items[i]) {
      EmptySearchMatches([items[i].title, items[i].description]);
    }
    WildcardShowsAll(items, KeepFor(ShowEverything));
  }

  /** Typing more into the search box only ever removes materials from the list. */
  lemma SearchNarrows(items: seq<Material>, q: Query, more: string)
    ensures IsSubsequence(Shown(items, q.(search := q.search + more)), Shown(items, q))
  {
    forall m | Keep(q.(search := q.search + more), m) ensures Keep(q, m) {
      LongerSearchMatchesLess([m.title, m.description], q.search, more);
    }
    StricterShowsLess(items, KeepFor(q.(search := q.search + more)), KeepFor(q));
  }

  /** `categories`: "all" and then each category of the materials once. */
  function Categories(items: seq<Material>): seq<string> {
    CategoryMenu(seq(|items|, i requires 0 <= i < |items| => items[i].category))
  }

  /** Every material's category is offered, nothing but categories of materials besides
      "all", and none twice. */
  lemma CategoriesSpec(items: seq<Material>)
    ensures Categories(items)[0] == "all"
    ensures forall i :: 0 <= i < |items| ==> items[i].category in Categories(items)[1..]
    ensures forall c :: c in Categories(items)[1..] ==> exists i :: 0 <= i < |items| && items[i].category == c
    ensures NoDuplicates(Categories(items)[1..])
  {
    var cats := seq(|items|, i requires 0 <= i < |items| => items[i].category);
    CategoryMenuSpec(cats);
    forall i | 0 <= i < |items| ensures items[i].category in Categories(items)[1..] {
      assert cats[i] in cats;
    }
    forall c | c in Categories(items)[1..] ensures exists i :: 0 <= i < |items| && items[i].category == c {
      var i :| 0 <= i < |cats| && cats[i] == c;
      assert items[i].category == c;
    }
  }

  /** `completedCount`. */
  function CompletedCount(items: seq<Material>): nat {
    |Filter(items, (m: Material) => m.isCompleted)|
  }

  /** Completed materials never outnumber the materials, and a list with every material
      completed counts them all. */
  lemma CompletedCountSpec(items: seq<Material>)
    ensures CompletedCount(items) <= |items|
    ensures (forall i :: 0 <= i < |items| ==> items[i].isCompleted) ==> CompletedCount(items) == |items|
  {
    if forall i :: 0 <= i < |items| ==> items[i].isCompleted {
      FilterKeepsAll(items, (m: Material) => m.isCompleted);
    }
  }

  /** `renderStars`: five stars, star `i` highlighted when `i` is below the rating rounded
      down. */
  function Stars(rating: real): seq<bool> {
    seq(5, i => i < rating.Floor)
  }

  /** The highlighted stars are a leading run of the five. */
  function Highlighted(stars: seq<bool>): nat {
    |Filter(stars, (b: bool) => b)|
  }

  /** A row whose stars are lit exactly below position `k` has `k` lit stars. */
  lemma {:induction false} LeadingRunCount(stars: seq<bool>, k: nat)
    requires k <= |stars|
    requires forall i :: 0 <= i < |stars| ==> (stars[i] <==> i < k)
    ensures Highlighted(stars) == k
  {
    if stars != [] {
      var rest := stars[1..];
      if k == 0 {
        LeadingRunCount(rest, 0);
      } else {
        LeadingRunCount(rest, k - 1);
      }
    }
  }

  /** Five stars always, lit from the left, as many as the rating rounded down and
      clamped to 0..5. */
  lemma StarsSpec(rating: real)
    ensures |Stars(rating)| == 5
    ensures forall i, j :: 0 <= i <= j < 5 && Stars(rating)[j] ==> Stars(rating)[i]
    ensures Highlighted(Stars(rating)) == if rating.Floor <= 0 then 0 else if rating.Floor >= 5 then 5 else rating.Floor
  {
    var k := if rating.Floor <= 0 then 0 else if rating.Floor >= 5 then 5 else rating.Floor;
    LeadingRunCount(Stars(rating), k);
  }

  /** A higher rating lights every star a lower one lights. */
  lemma StarsMonotone(low: real, high: real)
    requires low <= high
    ensures forall i :: 0 <= i < 5 && Stars(low)[i] ==> Stars(high)[i]
  {
    assert low.Floor <= high.Floor;
  }

  const CompletedLabel := "✅ Completed"
  const ContinueLabel := "▶️ Continue"
  const StartLabel := "\U{1F680} Start"

  /** The main button: completed first, then started, then not yet started; the label
      tells which of the three states the material is in. */
  function ActionLabel(m: Material): (r: string)
    ensures r == CompletedLabel <==> m.isCompleted
    ensures r == ContinueLabel <==> !m.isCompleted && m.progress > 0
    ensures r == StartLabel <==> !m.isCompleted && m.progress <= 0
  {
    assert CompletedLabel[0] != ContinueLabel[0] && ContinueLabel[0] != StartLabel[0] && CompletedLabel[0] != StartLabel[0];
    if m.isCompleted then CompletedLabel else if m.progress > 0 then ContinueLabel else StartLabel
  }

  /** The extra download button is offered for documents only. */
  predicate HasDownload(m: Material) {
    m.kind == "document"
  }

  /** Each material gets exactly one of the three labels, and the label tells which of
      the three states the material is in. */
  lemma ActionLabelDistinguishes(m1: Material, m2: Material)
    ensures ActionLabel(m1) in [CompletedLabel, ContinueLabel, StartLabel]
    ensures ActionLabel(m1) == ActionLabel(m2) ==>
              (m1.isCompleted <==> m2.isCompleted) && (!m1.isCompleted ==> (m1.progress > 0 <==> m2.progress > 0))
  {
    assert CompletedLabel[0] != ContinueLabel[0] && ContinueLabel[0] != StartLabel[0] && CompletedLabel[0] != StartLabel[0];
  }

  /** The demonstration: 2 of 6 completed; four highlighted stars on every material; the
      three label states; only the TypeScript guide offers a download. */
  lemma DemoPage()
    ensures CompletedCount(StudyMaterials) == 2 && |StudyMaterials| == 6
    ensures forall i :: 0 <= i < 6 ==> Highlighted(Stars(StudyMaterials[i].rating)) == 4
    ensures ActionLabel(StudyMaterials[0]) == CompletedLabel
    ensures ActionLabel(StudyMaterials[1]) == ContinueLabel
    ensures ActionLabel(StudyMaterials[2]) == StartLabel
    ensures forall i :: 0 <= i < 6 ==> (HasDownload(StudyMaterials[i]) <==> i == 1)
  {
    var s := StudyMaterials;
    var done := (m: Material) => m.isCompleted;
    assert Filter(s[5..], done) == [];
    assert Filter(s[4..], done) == [s[4]];
    assert Filter(s[3..], done) == [s[4]];
    assert Filter(s[2..], done) == [s[4]];
    assert Filter(s[1..], done) == [s[4]];
    forall i | 0 <= i < 6 ensures Highlighted(Stars(s[i].rating)) == 4 {
      assert 4.0 <= s[i].rating < 5.0;
      StarsSpec(s[i].rating);
    }
  }
}
